=== FILE: README.md ===
# OpenGL coursework viewers: parsers and keyboard state, in Dafny

This project models the non-graphical logic of two OpenGL demo programs,
`Modulo4/Origem.cpp` and `GrauB/Origem.cpp`. It covers:

- **Modulo4's Wavefront OBJ reader** (`readOBJFile`), with the vertex count
  `loadSimpleOBJ` derives from it. Each `f` line is flattened into three
  indices and three 11-float corners: position, the constant colour (1, 0, 1),
  texture coordinate, normal.
- **Modulo4's MTL lookup** (`loadSimpleMTL`). It finds the `map_Kd` texture of
  a named material.
- **The keyboard state machines of both programs.** They hold rotation flags
  (Modulo4) or per-object spin tags (GrauB), shared translation flags, a scale
  step, a curve-playback toggle and an object selection (GrauB).
- **Modulo4's placement of object copies** (`generateSceneObjects`) in
  alternating slots along the X axis.
- **The main loops' per-object dispatch.** In Modulo4 every object is spun,
  moved and scaled alike. In GrauB only the selected group is moved and scaled,
  translation is suppressed while an object follows its Bézier curve, and the
  curve index wraps modulo the number of curve points.

Files and modules:

| file | module | models |
|---|---|---|
| `wrappers.dfy` | `Wrappers` | `Option` and `Result` |
| `keys.dfy` | `Keys` | GLFW key and action codes, key events, digit keys |
| `text.dfy` | `Text` | word splitting as `istream >> string` does it, `find`/`substr` cuts, `atoi`, when `stoi` converts, float words |
| `obj_reader.dfy` | `ObjReader` | `readOBJFile`, `loadSimpleOBJ`'s `numVertices` |
| `mtl_reader.dfy` | `MtlReader` | `loadSimpleMTL` |
| `translation.dfy` | `Translation` | `adjustTranslation` and `resetTranslationVariables` of both programs |
| `viewer_input.dfy` | `ViewerInput` | Modulo4's `adjustScale`, `adjustRotation`, `keyCallback`, per-frame reset and per-object calls |
| `placement.dfy` | `Placement` | `generateSceneObjects` |
| `scene_input.dfy` | `SceneInput` | GrauB's `adjustScale`, `adjustRotation`, `adjustPlayCurve`, `setSelectedObject`, `selectObjectByKey`, `keyCallback` |
| `scene_frame.dfy` | `SceneFrame` | GrauB's main-loop pass over the scene |

Global variables become fields of immutable records (`Controls`), and every
handler becomes a function from one record to the next. GrauB's
`selectedObject` pointer becomes an optional index into the scene's sequence of
objects. The files are given as sequences of lines, with `None` for a file that
does not open. The calls a frame makes on scene objects are recorded as data
(`Action`, `Calls`) rather than performed: rotate, translate, scale, place on
the curve.

Error outcomes in `readOBJFile` are modelled rather than excluded by
preconditions:

- A face whose last `/`-separated part makes `stoi` throw ends the reader with
  `BadFace(line)`.
- So does a face whose index falls outside a pool; in C++ that is undefined
  behaviour.

## Model

| member | source | states |
|---|---|---|
| `Keys.DigitOf` | GrauB/Origem.cpp:152-161 | A key stands for a digit exactly when it is a main-row or keypad digit key. The digit is 0..9 and the key is that digit's key in one of the two rows. |
| `Text.Words` | Modulo4/Origem.cpp:163-165 | Each word a string extraction yields is non-empty and free of white space. |
| `Text.StoiConverts` | Modulo4/Origem.cpp:195-197 | `stoi` converts exactly when at least one digit follows the white space and the optional sign, the same digits `atoi` would read. Otherwise it throws. |
| `Text.WordsOfUnwords` | Modulo4/Origem.cpp:163-165 | Words written one space apart are read back, word by word, by successive string extractions. |
| `Text.After` | Modulo4/Origem.cpp:199-214 | Cutting a token after its first `/` leaves what follows that `/`. Without a `/`, `find` gives `npos`, stored as -1, so the whole token is kept. |
| `Text.BeforeSeparator` | Modulo4/Origem.cpp:199-214 | On `p/q` with no `/` in `p`, cutting before the first `/` gives `p` and cutting after it gives `q`. |
| `Text.AfterLastSeparator` | Modulo4/Origem.cpp:195-196 | On `p/q` with no `/` in `q`, the part after the last `/` is `q`. |
| `Text.AtoiDecimal` | Modulo4/Origem.cpp:197-201 | A decimal numeral is one word of digits. `atoi` reads it back as its value and `stoi` accepts it. |
| `ObjReader.CornerEntries` | Modulo4/Origem.cpp:204-225 | Each corner contributes exactly 11 floats. |
| `ObjReader.AppendCorners` | Modulo4/Origem.cpp:194-226 | In-pool corners extend the index list by one per corner and the buffer by 11 floats per corner. The existing contents and the material names are kept. |
| `ObjReader.ReadWords` | Modulo4/Origem.cpp:162-228 | One line either aborts or advances the reader, and it aborts exactly when it is an `f` line whose face is undefined. An `f` line adds 3 indices and 33 floats. Any other line adds nothing to either. `mtllib`/`usemtl` with an argument set the material file/name and otherwise keep them. A `v`, `vt` or `vn` line appends exactly its value to its own pool and leaves the other two alone. Any other line leaves the pools unchanged. |
| `ObjReader.PoolsOfLines` | Modulo4/Origem.cpp:173-189 | After a whole read each pool holds its starting contents followed by the values of its own kind of line (`v`, `vt` or `vn`) in file order. |
| `ObjReader.ReadLines` | Modulo4/Origem.cpp:161-228 | When the reading loop aborts, it names a line of the file. |
| `ObjReader.ReadLinesStopsAtFace` | Modulo4/Origem.cpp:161-228 | The reading loop aborts only at an `f` line of the file. |
| `ObjReader.ReadLinesFailure` | Modulo4/Origem.cpp:161-228 | The reading loop aborts at the first line it cannot read. Every line before that line reads, and that line does not read from the state they leave. |
| `ObjReader.UnreadableLine` | Modulo4/Origem.cpp:190-227 | A line that does not read is an `f` line whose face is undefined: a corner's last part makes `stoi` throw, or an index falls outside the pools. |
| `ObjReader.BadFaceIsFirstUnreadable` | Modulo4/Origem.cpp:146-232 | `BadFace(i)` names the first line `readOBJFile` gives up on. The lines before it read, and line i is an `f` line whose face is undefined over the pools those lines filled. |
| `ObjReader.ReadOBJFile` | Modulo4/Origem.cpp:146-232 | The result is `CannotOpen` exactly when the file does not open. Any other error names an `f` line. On success the caller's buffers are extended, never rewritten, by 3 indices and 33 floats per face line. |
| `ObjReader.ReadLinesCounts` | Modulo4/Origem.cpp:190-227 | Over a whole file, indices grow by 3 and the buffer by 3×11 floats per `f` line, and the old contents stay a prefix. |
| `ObjReader.AppendCornersLayout` | Modulo4/Origem.cpp:202-210 | Appending in-pool corners keeps the buffer interleaved: record k starts with the position of index k, followed by the colour (1, 0, 1). |
| `ObjReader.ReadLinesLayout` | Modulo4/Origem.cpp:161-228 | Reading any file successfully keeps the buffer interleaved in that sense. |
| `ObjReader.LoadSimpleOBJ` | Modulo4/Origem.cpp:260-270 | `numVertices` is 3 per face line, and the load fails as `CannotOpen` exactly when the file does not open. |
| `ObjReader.LoadedPositions` | Modulo4/Origem.cpp:173-210 | Read into empty buffers, position k of the pool is the k-th `v` line, and record k of the buffer starts with the xyz of the `v` line that index k names, then the colour. |
| `ObjReader.LoadedLayout` | Modulo4/Origem.cpp:263-270 | The buffer length divided by the stride 11 equals the number of indices, and the buffer is interleaved. |
| `ObjReader.NameStep` | Modulo4/Origem.cpp:167-172 | One line sets the material file (or name) exactly when it is a `mtllib` (or `usemtl`) line with an argument, and it sets it to that argument. |
| `ObjReader.LastNameWins` | Modulo4/Origem.cpp:167-172 | After a file, the material file and name are the arguments of the last `mtllib` and `usemtl` lines that have one. With no such line they are what the caller passed in. |
| `ObjReader.ParseCorner` | Modulo4/Origem.cpp:199-221 | A token without `/` designates `atoi(token) - 1` in all three pools, because every `find` gives `npos` and every cut keeps the whole token. |
| `ObjReader.ParseTwoPartCorner` | Modulo4/Origem.cpp:199-221 | A two-part token `v/vt` designates `vt - 1` in the normal pool as well as the texture-coordinate pool. |
| `ObjReader.ParseCornerToken` | Modulo4/Origem.cpp:199-221 | A written token `v/vt/vn` is read as the three indices less one: the position before the first `/`, the texture coordinate between the slashes, and the normal after the last `/`. |
| `ObjReader.CornerTokenConverts` | Modulo4/Origem.cpp:195-197 | `stoi` never throws on a written token's last part. |
| `ObjReader.FaceLineWords` | Modulo4/Origem.cpp:190-192 | A written `f` line is read as the word `f` and three tokens that convert and designate the written corners. |
| `ObjReader.ReadFaceWords` | Modulo4/Origem.cpp:190-227 | A face whose tokens convert appends, when all corners are in the pools, its three position indices and three records of 11 floats. Each record is xyz, (1, 0, 1), st, normal xyz. Otherwise the reader aborts. |
| `ObjReader.FaceLineRoundTrip` | Modulo4/Origem.cpp:149-227 | The same, end to end, for a face line as an exporter writes it with one-based indices. |
| `MtlReader.CurrentMaterialIsLast` | Modulo4/Origem.cpp:349-353 | The material in force is the name on the last `newmtl` line so far. There is none when no such line has been read. |
| `MtlReader.FoundStep` | Modulo4/Origem.cpp:349-353 | The `materialFound` flag is updated line by line so that it holds exactly when the material in force is the wanted one. |
| `MtlReader.FindTexture` | Modulo4/Origem.cpp:340-358 | The scan returns the argument of the first `map_Kd` line read while the wanted material is in force. It returns "" when there is no such line. |
| `MtlReader.LoadSimpleMTL` | Modulo4/Origem.cpp:330-362 | "" when the file does not open, and otherwise the texture of the first matching `map_Kd` line, or "" when none matches. |
| `MtlReader.OtherMaterialClears` | Modulo4/Origem.cpp:349-354 | After a `newmtl` naming another material, no line matches until the next `newmtl`. |
| `MtlReader.KeywordLine` | Modulo4/Origem.cpp:345-352 | A line written as a keyword and an argument is read back as those two words. |
| `MtlReader.BlockMatches` | Modulo4/Origem.cpp:349-356 | A `newmtl <name>` line directly followed by `map_Kd <texture>` makes that line a match for `name`, whatever came before, and its argument is `texture`. |
| `Translation.Adjust` | Modulo4/Origem.cpp:64-107 | A bound key turns on exactly its axis: Right/Left X, Up/Down Y, W/S (Modulo4) or I/K (GrauB) Z. Its direction is +1 for Right, Up and W/I and -1 for the others. The result is valid (at most one axis, direction in {-1, 0, 1}, 0 exactly when idle) whenever the key is bound or the flags were already valid. Other keys change nothing. |
| `Translation.ResetIsIdle` | Modulo4/Origem.cpp:119-124 | The reset flags are valid, with no axis on and direction 0. |
| `Translation.AdjustIdempotent` | GrauB/Origem.cpp:88-131 | Pressing the same key twice is the same as pressing it once. |
| `Translation.LastBoundKeyWins` | Modulo4/Origem.cpp:64-107 | After a run of keys the flags are what the last axis key alone sets from the reset state. They are the starting flags when no key in the run is an axis key. |
| `Translation.AdjustAllValid` | GrauB/Origem.cpp:88-131 | Valid flags stay valid under any run of keys. |
| `ViewerInput.AdjustRotation` | Modulo4/Origem.cpp:39-62 | X, Y and Z switch on exactly the matching rotation flag and switch off the other two. Other keys leave all three alone. |
| `ViewerInput.RotationNeverStops` | Modulo4/Origem.cpp:39-62 | Rotation flags stay valid. Once an axis spins, some axis keeps spinning. |
| `ViewerInput.AdjustScale` | Modulo4/Origem.cpp:29-37 | Keypad + multiplies the scale by 21/20, keypad - by 19/20. Other keys keep it. |
| `ViewerInput.ScaleSteps` | Modulo4/Origem.cpp:29-37 | A positive scale stays positive. + then - leaves 399/400 of it, so the two keys do not cancel. |
| `ViewerInput.KeyCallback` | Modulo4/Origem.cpp:109-117 | The window is asked to close exactly when Escape is pressed, or was already asked. Every event, release and repeat included, goes through the scale, rotation and translation handlers. Valid state stays valid. |
| `ViewerInput.ActionMattersOnlyForEscape` | Modulo4/Origem.cpp:109-117 | Apart from Escape, press, repeat and release of a key have the same effect. |
| `ViewerInput.TranslationOfEvents` | Modulo4/Origem.cpp:114-116 | The translation left by a run of events is the translation dispatch applied to their keys. |
| `ViewerInput.KeyCallbacksValid` | Modulo4/Origem.cpp:109-117 | Any run of events keeps the state valid. |
| `ViewerInput.Frame` | Modulo4/Origem.cpp:420-424 | A frame's input handling keeps a valid state valid. |
| `ViewerInput.FrameTranslation` | Modulo4/Origem.cpp:420-424 | Translation does not carry over between frames. A frame moves along the axis of its own last axis key, and does not move without one. |
| `ViewerInput.ObjectActions` | Modulo4/Origem.cpp:432-448 | Each object receives a rotation exactly when some rotation flag is on, about that axis. It receives a translation exactly when some translation flag is on, along that axis with the nonzero direction. There is at most one rotation, at most one translation and exactly one scale call, in that order. |
| `ViewerInput.FrameActions` | Modulo4/Origem.cpp:420-448 | Objects are moved in a frame exactly when one of that frame's events is an arrow or W/S key, along the axis and in the direction the last such key picks. |
| `Placement.SlotBijection` | Modulo4/Origem.cpp:135-138 | The slot of object i (`-(i/2)` for even i, `i/2+1` for odd i) and the object of a slot undo each other. |
| `Placement.SlotInjective` | Modulo4/Origem.cpp:135-138 | Distinct objects sit in distinct slots. |
| `Placement.SlotsOfFirst` | Modulo4/Origem.cpp:131-138 | The first n objects fill exactly the slots from -((n-1)/2) to n/2. |
| `Placement.GenerateSceneObjects` | Modulo4/Origem.cpp:126-144 | Returns max(numObjects, 0) objects, all sharing the mesh, with object i at x = slot(i) × 2.75. |
| `Placement.PlacementDistinct` | Modulo4/Origem.cpp:129-138 | Object 0 is at the origin and no two objects share an x coordinate. |
| `SceneInput.AdjustScale` | GrauB/Origem.cpp:51-59 | Keypad + adds 0.05 to the pending scale step, keypad - subtracts it. Other keys keep it. |
| `SceneInput.ScaleStepsCancel` | GrauB/Origem.cpp:51-59 | Unlike Modulo4's proportional steps, + then - cancel exactly. |
| `SceneInput.AdjustRotation` | GrauB/Origem.cpp:62-80 | With a selection, X/Y/Z set the selected object's spin tag to "x"/"y"/"z" and change nothing else. Without a selection, or for any other key, nothing changes. |
| `SceneInput.AdjustPlayCurve` | GrauB/Origem.cpp:82-85 | P toggles the selected object's curve playback and nothing else. Without a selection, or for any other key, nothing changes. |
| `SceneInput.PlayCurveTwice` | GrauB/Origem.cpp:82-85 | Two presses of P restore the state. |
| `SceneInput.FirstWithId` | GrauB/Origem.cpp:140-144 | The scan stops at the first object of the group. It finds nothing exactly when no object belongs to the group. |
| `SceneInput.SetSelectedObject` | GrauB/Origem.cpp:133-148 | The old selection's spin tag is cleared and no other object changes. A negative id deselects. Otherwise the first object of the group is selected, or the old selection stays when the group is empty. The translation flags and scale step are reset. |
| `SceneInput.SelectionId` | GrauB/Origem.cpp:150-165 | Digit keys of either row pick groups 0..9, both Enter keys pick -1, and no other key picks anything. |
| `SceneInput.SelectObjectByKey` | GrauB/Origem.cpp:150-165 | A digit selects the first object of its group, or keeps the selection when the group is empty. Enter deselects. Both reset translation and scale, and both clear the old selection's spin tag while leaving every other object as it was. Other keys change nothing. |
| `SceneInput.KeyCallback` | GrauB/Origem.cpp:168-184 | The window is asked to close exactly when Escape is pressed, or was already asked. The state stays valid: the selection points into the scene and the flags are consistent. The scene keeps its size. A repeat or release only moves the translation flags. A press of a selection key leaves them reset; any other key moves them as `adjustTranslation` does. A press also applies the scale step, and a selection key resets the scale. With a selection, a press of X/Y/Z sets the selected object's spin tag and a press of P toggles its curve playback. A press of a selection key does exactly what `selectObjectByKey` does. Any other press changes the scene only as `adjustRotation` followed by `adjustPlayCurve` do. |
| `SceneInput.NotPressOnlyTranslates` | GrauB/Origem.cpp:173-180 | A repeat or release only moves the translation flags. Scale, rotation, curve toggle and selection react to presses alone. |
| `SceneInput.DigitPressSelects` | GrauB/Origem.cpp:150-177 | Pressing digit n while group n is non-empty selects its first object and leaves no translation pending. |
| `SceneInput.FirstWithIdIgnoresRotate` | GrauB/Origem.cpp:134-144 | Clearing a spin tag before the scan does not change which object it finds. |
| `SceneInput.KeyCallbacks` | GrauB/Origem.cpp:247-252 | Any run of events keeps the state valid and the scene's size. |
| `SceneFrame.CppRem` | GrauB/Origem.cpp:299 | C++ `%`: dividend = truncated quotient × divisor + remainder. The remainder has the dividend's sign and lies within the divisor. A dividend already in range is its own remainder, and the divisor itself wraps to 0. |
| `SceneFrame.Advance` | GrauB/Origem.cpp:296-300 | A curve follower's index moves to the next point and wraps from the last point to 0, so it stays in [0, nbCurve). Nothing else changes, and an object not following a curve is untouched. |
| `SceneFrame.UpdateObject` | GrauB/Origem.cpp:275-300 | An object spins about the axis its tag names. It takes the scale step exactly when it is in the selected non-negative group. It moves exactly when it is in that group, some translation flag is on and it is not following its curve, and then along the active axis with the current direction. A curve follower is placed at its current point. |
| `SceneFrame.UpdateAll` | GrauB/Origem.cpp:264-304 | Every object of the scene is updated in order, against the same selection, flags and scale. |
| `SceneFrame.UpdateScene` | GrauB/Origem.cpp:264-306 | Exactly the objects of the selected non-negative group take the scale step. Of those, exactly the ones not following their curve move, and only while a translation flag is on. Every object advances on its curve. The scale step is reset afterwards and nothing else changes. Each object, and the calls it receives, are exactly what the per-object body of the loop gives for it. |
| `SceneFrame.SelectedIsTransformed` | GrauB/Origem.cpp:282-294 | The selected object of a non-negative group always takes the scale step. It moves exactly when a translation flag is on and it is not following its curve. |
| `SceneFrame.OthersUntransformed` | GrauB/Origem.cpp:282-294 | Objects outside the selected non-negative group are neither moved nor scaled, and neither is any object when nothing is selected. |
| `SceneFrame.Frame` | GrauB/Origem.cpp:247-310 | A whole frame keeps the state valid and the scene's size, and ends with no scale step pending. |
| `SceneFrame.AdvanceNPoint` | GrauB/Origem.cpp:296-300 | Within one lap, n frames move a curve follower n points on, wrapping once past the last point. |
| `SceneFrame.CurveReturns` | GrauB/Origem.cpp:296-300 | After nbCurve frames a curve follower is back at its starting point. |

## Left out

- OpenGL, GLFW and rendering: shaders, buffers (`initializeBuffers`), textures (`loadTexture`), the window, swapping and clearing. They are calls into foreign libraries.
- File opening and `getline`: each file is its sequence of lines, with `None` for a file that does not open. The error messages written to `cerr` are not modelled.
- Floating point: coordinates, scales and the 2.75 spacing are exact reals. Float rounding is not modelled.
- Float words (`ObjReader.ReadVec3`, `ObjReader.ReadVec2`, `Text.ReadFloat`): each coordinate is read from one white-space-separated word, with an optional sign, digits and a fraction. A float extraction in C++ reads characters, not words: for `v 1.0-2.0 3.0` C++ pushes (1.0, -2.0, 3.0), while the model reads (1.0, 3.0, 0.0). So `ObjReader.PoolsOfLines` and `ObjReader.LoadedPositions` hold for this word-level reading of coordinates. Exponents, `inf`/`nan`, and a failed extraction that stops the later ones on the same line are not modelled either. Pools do not feed into any index count.
- Integer width (`Text.Atoi`): `atoi` and `stoi` are modelled on unbounded integers. `stoi`'s `out_of_range` and `atoi`'s undefined overflow are not modelled.
- `ObjReader.ReadOBJFile`: in C++ the corners read before a bad corner of the same face are already pushed when the program aborts. The model reports `BadFace` without them, since nothing after the abort can observe them.
- The camera (`moveCamera`, `updateCameraDirection`, `scrollCamera`, `updateCamera`), and the mouse and scroll callbacks. They belong to `Camera.cpp`, which is not part of this model.
- `SceneObj`, `SceneObject`, `Scene` and `Bezier`: their rotate, translate, scale, position and curve-point methods are recorded as calls (`Action`, `Calls`), not performed. Their sources are not part of this model.
- Scene loading from `Scene.json` and the lighting uniforms: they are I/O and shader plumbing.
- `SceneFrame.Frame`: it does not state which translation a frame ends with. In GrauB a selection key inside the frame also resets the flags, so the flags depend on the interleaving of keys, not only on the last axis key. `SceneInput.KeyCallback` states what each event does to the flags, and `Translation.LastBoundKeyWins` states what a run of axis keys leaves.
- `MtlReader.BlockMatches`: it is stated over the words of the block's lines. `MtlReader.KeywordLine` separately states that such written lines read back as those words.
- `SceneFrame.AdvanceNPoint`: it is stated for at most one lap (n ≤ nbCurve). Longer runs follow by applying `SceneFrame.CurveReturns` once per lap.

=== FILE: keys.dfy ===
/**
 * Key and action codes delivered by GLFW to a key callback. The numbers are
 * GLFW's own, so that two keys compare equal exactly when GLFW's do.
 */
module Keys {
  import opened Wrappers

  // Actions
  const Release: int := 0
  const Press: int := 1
  const Repeat: int := 2

  // Letters
  const I: int := 73
  const K: int := 75
  const P: int := 80
  const S: int := 83
  const W: int := 87
  const X: int := 88
  const Y: int := 89
  const Z: int := 90

  // Main-row digits 0..9 are 48..57
  const Digit0: int := 48

  // Editing and arrow keys
  const Escape: int := 256
  const Enter: int := 257
  const Right: int := 262
  const Left: int := 263
  const Down: int := 264
  const Up: int := 265

  // Keypad digits 0..9 are 320..329
  const Keypad0: int := 320
  const KeypadSubtract: int := 333
  const KeypadAdd: int := 334
  const KeypadEnter: int := 335

  /** One call of the key callback: which key, and whether it was pressed, repeated or released. */
  datatype KeyEvent = KeyEvent(key: int, action: int)

  /** The keys of a sequence of events, in order. */
  function KeysOf(events: seq<KeyEvent>): (keys: seq<int>)
    ensures |keys| == |events|
    ensures forall i :: 0 <= i < |events| ==> keys[i] == events[i].key
  {
    if events == [] then [] else [events[0].key] + KeysOf(events[1..])
  }

  /** The digit a main-row or keypad digit key stands for. */
  function DigitOf(key: int): (d: Option<int>)
    ensures d.Some? <==> (Digit0 <= key <= Digit0 + 9 || Keypad0 <= key <= Keypad0 + 9)
    ensures d.Some? ==> 0 <= d.value <= 9
    ensures d.Some? ==> key == Digit0 + d.value || key == Keypad0 + d.value
  {
    if Digit0 <= key <= Digit0 + 9 then Some(key - Digit0)
    else if Keypad0 <= key <= Keypad0 + 9 then Some(key - Keypad0)
    else None
  }
}

=== FILE: mtl_reader.dfy ===
/**
 * Modulo4's material reader (`loadSimpleMTL`): scans an MTL file for the
 * diffuse texture (`map_Kd`) of one named material. The file is given as its
 * lines; a file that cannot be opened is `None`.
 */
module MtlReader {
  import opened Wrappers
  import opened Text

  /** A line as the words successive `>>` extractions read from it. */
  type Line = seq<string>

  /** The words of every line of a file, in order. */
  function Split(lines: seq<string>): (ls: seq<Line>)
    ensures |ls| == |lines|
  {
    seq(|lines|, i requires 0 <= i < |lines| => Words(lines[i]))
  }

  /** The line starts a material block (`newmtl <name>`). */
  predicate IsNewmtl(line: Line) {
    WordOr(line, 0, "") == "newmtl"
  }

  /** The line names a diffuse texture map (`map_Kd <file>`). */
  predicate IsMapKd(line: Line) {
    WordOr(line, 0, "") == "map_Kd"
  }

  /** No line both opens a material and names a texture map. */
  lemma NewmtlIsNotMapKd(line: Line)
    requires IsNewmtl(line)
    ensures !IsMapKd(line)
  {
    assert "newmtl"[0] != "map_Kd"[0];
  }

  /**
   * The name a line hands to `>>`: its second word, or "" when there is
   * none, since the target string starts out empty.
   */
  function Argument(line: Line): string {
    WordOr(line, 1, "")
  }

  /** `newmtl` line `k` is the last one among `lines`. */
  predicate LastNewmtl(lines: seq<Line>, k: int) {
    && 0 <= k < |lines|
    && IsNewmtl(lines[k])
    && forall j :: k < j < |lines| ==> !IsNewmtl(lines[j])
  }

  /**
   * The material the most recent `newmtl` line among `lines` opened, or `None`
   * when there is none yet.
   */
  function CurrentMaterial(lines: seq<Line>): Option<string> {
    if lines == [] then None
    else if IsNewmtl(lines[|lines| - 1]) then Some(Argument(lines[|lines| - 1]))
    else CurrentMaterial(lines[..|lines| - 1])
  }

  /** Dropping a last line that opens no material keeps the last `newmtl` line. */
  lemma LastNewmtlDrop(lines: seq<Line>, k: int)
    requires lines != [] && !IsNewmtl(lines[|lines| - 1])
    requires LastNewmtl(lines, k)
    ensures LastNewmtl(lines[..|lines| - 1], k)
  {
  }

  /** Dropping a last line that opens no material keeps "no `newmtl` line". */
  lemma NoNewmtlDrop(lines: seq<Line>, prefix: seq<Line>)
    requires lines != [] && !IsNewmtl(lines[|lines| - 1])
    requires prefix == lines[..|lines| - 1]
    ensures (forall j :: 0 <= j < |lines| ==> !IsNewmtl(lines[j]))
        <==> (forall j :: 0 <= j < |prefix| ==> !IsNewmtl(prefix[j]))
  {
    assert forall j :: 0 <= j < |prefix| ==> prefix[j] == lines[j];
  }

  /** With no `newmtl` line there is no current material; otherwise it is the last `newmtl` line's name. */
  lemma {:induction false} CurrentMaterialIsLast(lines: seq<Line>)
    ensures CurrentMaterial(lines).None? <==> forall j :: 0 <= j < |lines| ==> !IsNewmtl(lines[j])
    ensures forall k :: LastNewmtl(lines, k) ==> CurrentMaterial(lines) == Some(Argument(lines[k]))
  {
    if lines != [] {
      var n := |lines| - 1;
      if IsNewmtl(lines[n]) {
        forall k | LastNewmtl(lines, k) ensures k == n {
        }
      } else {
        CurrentMaterialIsLast(lines[..n]);
        NoNewmtlDrop(lines, lines[..n]);
        forall k | LastNewmtl(lines, k) ensures CurrentMaterial(lines) == Some(Argument(lines[k])) {
          LastNewmtlDrop(lines, k);
        }
      }
    }
  }

  /** Line `i` is a `map_Kd` line read while the named material is current. */
  predicate Matches(lines: seq<Line>, name: string, i: int) {
    && 0 <= i < |lines|
    && IsMapKd(lines[i])
    && CurrentMaterial(lines[..i]) == Some(name)
  }

  /** Reading one more line either opens a material or keeps the current one. */
  lemma CurrentMaterialStep(lines: seq<Line>, k: nat)
    requires k < |lines|
    ensures CurrentMaterial(lines[..k + 1])
      == if IsNewmtl(lines[k]) then Some(Argument(lines[k])) else CurrentMaterial(lines[..k])
  {
    assert lines[..k + 1][..k] == lines[..k];
  }

  /** The loop's `materialFound` flag after one more line, given that it tracked the current material before. */
  lemma FoundStep(lines: seq<Line>, name: string, k: nat, found: bool)
    requires k < |lines|
    requires found <==> CurrentMaterial(lines[..k]) == Some(name)
    ensures (if IsNewmtl(lines[k]) then Argument(lines[k]) == name else found)
      <==> CurrentMaterial(lines[..k + 1]) == Some(name)
  {
    CurrentMaterialStep(lines, k);
  }

  /** No line before `k` matches. */
  predicate NoMatchBefore(lines: seq<Line>, name: string, k: int) {
    forall j :: 0 <= j < k ==> !Matches(lines, name, j)
  }

  /** Line `i` is the first match. */
  predicate FirstMatch(lines: seq<Line>, name: string, i: int) {
    Matches(lines, name, i) && NoMatchBefore(lines, name, i)
  }

  /** No line before `k + 1` matches once line `k` does not. */
  lemma NoMatchExtends(lines: seq<Line>, name: string, k: nat)
    requires k < |lines|
    requires NoMatchBefore(lines, name, k)
    requires !Matches(lines, name, k)
    ensures NoMatchBefore(lines, name, k + 1)
  {
    forall j | 0 <= j < k + 1 ensures !Matches(lines, name, j) {
      if j < k {
      }
    }
  }

  /** There is at most one first match. */
  lemma FirstMatchUnique(lines: seq<Line>, name: string, k: nat)
    requires FirstMatch(lines, name, k)
    ensures forall i :: FirstMatch(lines, name, i) ==> i == k
    ensures !NoMatchBefore(lines, name, |lines|)
  {
  }

  /**
   * The scan of `loadSimpleMTL` over the lines' words: the argument of the
   * first `map_Kd` line met while the most recent `newmtl` names
   * `materialName`, or "" when there is no such line.
   */
  method FindTexture(lines: seq<Line>, materialName: string) returns (texture: string)
    ensures NoMatchBefore(lines, materialName, |lines|) ==> texture == ""
    ensures forall i :: FirstMatch(lines, materialName, i) ==> texture == Argument(lines[i])
  {
    texture := "";
    var found := false;
    var k := 0;
    assert lines[..0] == [];
    while k < |lines|
      invariant 0 <= k <= |lines|
      invariant found <==> CurrentMaterial(lines[..k]) == Some(materialName)
      invariant NoMatchBefore(lines, materialName, k)
      invariant texture == ""
    {
      FoundStep(lines, materialName, k, found);
      if IsNewmtl(lines[k]) {
        NewmtlIsNotMapKd(lines[k]);
        found := Argument(lines[k]) == materialName;
      } else if IsMapKd(lines[k]) && found {
        texture := Argument(lines[k]);
        FirstMatchUnique(lines, materialName, k);
        return;
      }
      NoMatchExtends(lines, materialName, k);
      k := k + 1;
    }
    FirstMatchNone(lines, materialName);
  }

  /**
   * `loadSimpleMTL`: the texture of `materialName` as `FindTexture` finds it
   * in the file's lines; "" when the file does not open.
   */
  method LoadSimpleMTL(file: Option<seq<string>>, materialName: string) returns (texture: string)
    ensures file.None? ==> texture == ""
    ensures file.Some? && NoMatchBefore(Split(file.value), materialName, |file.value|) ==> texture == ""
    ensures file.Some? ==> forall i ::
      FirstMatch(Split(file.value), materialName, i) ==> texture == Argument(Split(file.value)[i])
  {
    texture := "";
    if file.Some? {
      texture := FindTexture(Split(file.value), materialName);
    }
  }

  /** When no line matches there is no first match. */
  lemma FirstMatchNone(lines: seq<Line>, name: string)
    requires NoMatchBefore(lines, name, |lines|)
    ensures forall i :: !FirstMatch(lines, name, i)
  {
  }

  /**
   * A later `newmtl` naming another material ends the match: every line after
   * it, up to the next `newmtl`, is read under that other material.
   */
  lemma {:induction false} OtherMaterialClears(lines: seq<Line>, name: string, k: nat, i: nat)
    requires k < i <= |lines|
    requires IsNewmtl(lines[k]) && Argument(lines[k]) != name
    requires forall j :: k < j < i ==> !IsNewmtl(lines[j])
    ensures CurrentMaterial(lines[..i]) == Some(Argument(lines[k]))
    ensures i < |lines| ==> !Matches(lines, name, i)
  {
    if i - 1 > k {
      OtherMaterialClears(lines, name, k, i - 1);
    }
    CurrentMaterialStep(lines, i - 1);
  }

  /** A keyword line as an exporter writes it, `<keyword> <argument>`, reads back as its two words. */
  lemma KeywordLine(keyword: string, argument: string)
    requires IsWord(keyword) && IsWord(argument)
    ensures Words(Unwords([keyword, argument])) == [keyword, argument]
  {
    WordsOfUnwords([keyword, argument]);
  }

  /**
   * Whatever lines come before it, a material block `newmtl <name>` then
   * `map_Kd <texture>` (as `KeywordLine` reads such lines back) makes its
   * `map_Kd` line a match, and the texture it names is that line's argument.
   */
  lemma BlockMatches(before: seq<Line>, name: string, texture: string)
    ensures var lines := before + [["newmtl", name], ["map_Kd", texture]];
      && Matches(lines, name, |before| + 1)
      && Argument(lines[|before| + 1]) == texture
  {
    var lines := before + [["newmtl", name], ["map_Kd", texture]];
    assert lines[..|before| + 1][..|before|] == before;
    CurrentMaterialStep(lines, |before|);
  }
}

=== FILE: obj_reader.dfy ===
/**
 * Modulo4's Wavefront OBJ reader (`readOBJFile`) and the vertex count
 * `loadSimpleOBJ` derives from it. The file is given as its lines; a file
 * that cannot be opened is `None`.
 *
 * The reader keeps three pools (positions from `v`, texture coordinates from
 * `vt`, normals from `vn`) and, for every `f` line, emits three indices and
 * three interleaved corners of 11 floats each: position xyz, the constant
 * colour (1, 0, 1), texture coordinate st, normal xyz.
 */
module ObjReader {
  import opened Wrappers
  import opened Text

  datatype Vec3 = Vec3(x: real, y: real, z: real)
  datatype Vec2 = Vec2(s: real, t: real)

  /** Floats per corner in the vertex buffer: position 3, colour 3, texture coordinate 2, normal 3. */
  const Stride: nat := 11

  /** The colour every corner carries. */
  const Colour: seq<real> := [1.0, 0.0, 1.0]

  /** The reader's local pools, filled by `v`, `vt` and `vn` lines. */
  datatype Pools = Pools(vertices: seq<Vec3>, texCoords: seq<Vec2>, normals: seq<Vec3>)

  /** What the reader hands back through its reference parameters. */
  datatype Mesh = Mesh(indices: seq<int>, vbuffer: seq<real>, materialFile: string, materialName: string)

  datatype Reader = Reader(pools: Pools, mesh: Mesh)

  /**
   * `CannotOpen`: the file did not open and the reader returns false.
   * `BadFace(line)`: the face on that line makes `stoi` throw or indexes past
   * the end of a pool, neither of which `readOBJFile` guards against.
   */
  datatype ObjError = CannotOpen | BadFace(line: nat)

  /** The zero-based pool indices one face token designates. */
  datatype Corner = Corner(position: int, texCoord: int, normal: int)

  /**
   * Reads a `v/vt/vn` token: each part's `atoi` minus one. A token without
   * '/' designates the same number in all three pools.
   */
  function ParseCorner(tok: string): (c: Corner)
    ensures '/' !in tok ==> c == Corner(Atoi(tok) - 1, Atoi(tok) - 1, Atoi(tok) - 1)
  {
    var rest := After(tok, '/');
    var c := Corner(Atoi(Before(tok, '/')) - 1, Atoi(Before(rest, '/')) - 1, Atoi(After(rest, '/')) - 1);
    if '/' in tok then c else NoSeparator(tok, '/'); c
  }

  /**
   * A two-part token `v/vt` designates the texture coordinate's number in the
   * normal pool too, since the second cut finds no '/' and keeps what is left.
   */
  lemma ParseTwoPartCorner(v: string, vt: string)
    requires '/' !in v && '/' !in vt
    ensures ParseCorner(v + "/" + vt) == Corner(Atoi(v) - 1, Atoi(vt) - 1, Atoi(vt) - 1)
  {
    var tok := v + ['/'] + vt;
    assert v + "/" + vt == tok;
    assert tok[|v|] == '/';
    BeforeSeparator(v, '/', vt);
    NoSeparator(vt, '/');
  }

  /** The three tokens an `f` line is read into; missing ones stay empty. */
  function FaceTokens(ws: seq<string>): seq<string> {
    [WordOr(ws, 1, ""), WordOr(ws, 2, ""), WordOr(ws, 3, "")]
  }

  /** The corners of a face line, in token order. */
  function FaceCorners(ws: seq<string>): (cs: seq<Corner>)
    ensures |cs| == 3
  {
    var toks := FaceTokens(ws);
    [ParseCorner(toks[0]), ParseCorner(toks[1]), ParseCorner(toks[2])]
  }

  /** The corner lies inside all three pools. */
  predicate InPools(p: Pools, c: Corner) {
    0 <= c.position < |p.vertices| && 0 <= c.texCoord < |p.texCoords| && 0 <= c.normal < |p.normals|
  }

  /** `stoi` accepts what follows the last '/' of the token. */
  predicate TokenConverts(tok: string) {
    StoiConverts(AfterLast(tok, '/'))
  }

  /** `stoi` accepts what follows the last '/' of every token of the face. */
  predicate TokensConvert(ws: seq<string>) {
    TokenConverts(WordOr(ws, 1, "")) && TokenConverts(WordOr(ws, 2, "")) && TokenConverts(WordOr(ws, 3, ""))
  }

  predicate AllInPools(p: Pools, cs: seq<Corner>) {
    forall i :: 0 <= i < |cs| ==> InPools(p, cs[i])
  }

  /** No corner of the face makes `stoi` throw or reads outside a pool. */
  predicate FaceDefined(p: Pools, ws: seq<string>) {
    TokensConvert(ws) && AllInPools(p, FaceCorners(ws))
  }

  function XYZ(v: Vec3): seq<real> {
    [v.x, v.y, v.z]
  }

  function ST(v: Vec2): seq<real> {
    [v.s, v.t]
  }

  /** The 11 floats one corner contributes to the vertex buffer. */
  function CornerEntries(p: Pools, c: Corner): (e: seq<real>)
    requires InPools(p, c)
    ensures |e| == Stride
  {
    XYZ(p.vertices[c.position]) + Colour + ST(p.texCoords[c.texCoord]) + XYZ(p.normals[c.normal])
  }

  /** The line's words are a `mtllib` or `usemtl` keyword with an argument to store. */
  predicate SetsName(ws: seq<string>, keyword: string) {
    WordOr(ws, 0, "") == keyword && |ws| >= 2
  }

  /** A vertex line's value: its three coordinate words read as floats. */
  function ReadVec3(ws: seq<string>): Vec3 {
    Vec3(ReadFloat(WordOr(ws, 1, "")), ReadFloat(WordOr(ws, 2, "")), ReadFloat(WordOr(ws, 3, "")))
  }

  /** A texture-coordinate line's value: its two coordinate words read as floats. */
  function ReadVec2(ws: seq<string>): Vec2 {
    Vec2(ReadFloat(WordOr(ws, 1, "")), ReadFloat(WordOr(ws, 2, "")))
  }

  /** The line's first word is one of the pool keywords `v`, `vt`, `vn`. */
  predicate FillsPool(ws: seq<string>) {
    WordOr(ws, 0, "") in {"v", "vt", "vn"}
  }

  /** The indices and 11-float records a sequence of corners appends. */
  function AppendCorners(p: Pools, m: Mesh, cs: seq<Corner>): (m': Mesh)
    requires AllInPools(p, cs)
    ensures m.indices <= m'.indices && |m'.indices| == |m.indices| + |cs|
    ensures m.vbuffer <= m'.vbuffer && |m'.vbuffer| == |m.vbuffer| + |cs| * Stride
    ensures m'.materialFile == m.materialFile && m'.materialName == m.materialName
    decreases |cs|
  {
    if cs == [] then m
    else
      var c := cs[|cs| - 1];
      var m1 := AppendCorners(p, m, cs[..|cs| - 1]);
      m1.(indices := m1.indices + [c.position], vbuffer := m1.vbuffer + CornerEntries(p, c))
  }

  /** The three indices and 33 floats one face appends. */
  function AppendFace(p: Pools, m: Mesh, ws: seq<string>): (m': Mesh)
    requires FaceDefined(p, ws)
    ensures m.indices <= m'.indices && |m'.indices| == |m.indices| + 3
    ensures m.vbuffer <= m'.vbuffer && |m'.vbuffer| == |m.vbuffer| + 3 * Stride
    ensures m'.materialFile == m.materialFile && m'.materialName == m.materialName
  {
    AppendCorners(p, m, FaceCorners(ws))
  }

  /**
   * One pass of the reading loop, given the line's words: dispatch on the
   * first word. `None` when the line is a face `readOBJFile` cannot read.
   */
  function ReadWords(r: Reader, ws: seq<string>): (o: Option<Reader>)
    ensures o.None? <==> WordOr(ws, 0, "") == "f" && !FaceDefined(r.pools, ws)
    ensures o.Some? ==>
      var m, m' := r.mesh, o.value.mesh;
      && m.indices <= m'.indices
      && m.vbuffer <= m'.vbuffer
      && (WordOr(ws, 0, "") == "f" ==>
            |m'.indices| == |m.indices| + 3 && |m'.vbuffer| == |m.vbuffer| + 3 * Stride)
      && (WordOr(ws, 0, "") != "f" ==> m'.indices == m.indices && m'.vbuffer == m.vbuffer)
    ensures o.Some? && WordOr(ws, 0, "") == "f" ==> o.value == Reader(r.pools, AppendFace(r.pools, r.mesh, ws))
    ensures o.Some? ==>
      o.value.mesh.materialFile == (if SetsName(ws, "mtllib") then ws[1] else r.mesh.materialFile)
    ensures o.Some? ==>
      o.value.mesh.materialName == (if SetsName(ws, "usemtl") then ws[1] else r.mesh.materialName)
    ensures o.Some? && WordOr(ws, 0, "") == "v" ==>
      o.value.pools == r.pools.(vertices := r.pools.vertices + [ReadVec3(ws)])
    ensures o.Some? && WordOr(ws, 0, "") == "vt" ==>
      o.value.pools == r.pools.(texCoords := r.pools.texCoords + [ReadVec2(ws)])
    ensures o.Some? && WordOr(ws, 0, "") == "vn" ==>
      o.value.pools == r.pools.(normals := r.pools.normals + [ReadVec3(ws)])
    ensures o.Some? && !FillsPool(ws) ==> o.value.pools == r.pools
  {
    var word := WordOr(ws, 0, "");
    var p, m := r.pools, r.mesh;
    if word == "mtllib" then
      Some(r.(mesh := m.(materialFile := WordOr(ws, 1, m.materialFile))))
    else if word == "usemtl" then
      Some(r.(mesh := m.(materialName := WordOr(ws, 1, m.materialName))))
    else if word == "v" then
      Some(r.(pools := p.(vertices := p.vertices + [ReadVec3(ws)])))
    else if word == "vt" then
      Some(r.(pools := p.(texCoords := p.texCoords + [ReadVec2(ws)])))
    else if word == "vn" then
      Some(r.(pools := p.(normals := p.normals + [ReadVec3(ws)])))
    else if word == "f" then
      if FaceDefined(p, ws) then Some(r.(mesh := AppendFace(p, m, ws))) else None
    else
      Some(r)
  }

  /** One pass of the reading loop: the line is split into words as the string stream does. */
  function ReadLine(r: Reader, line: string): Option<Reader> {
    ReadWords(r, Words(line))
  }

  /**
   * The reading loop over every line; `Failure(i)` names the first face
   * `readOBJFile` cannot read (`ReadLinesFailure`, `ReadLinesStopsAtFace`).
   */
  function ReadLines(r: Reader, lines: seq<string>): (res: Result<Reader, int>)
    ensures res.Failure? ==> 0 <= res.error < |lines|
    decreases |lines|
  {
    if lines == [] then Success(r)
    else
      match ReadLine(r, lines[0])
      case None => Failure(0)
      case Some(r1) =>
        var tail := ReadLines(r1, lines[1..]);
        if tail.Success? then tail else Failure(tail.error + 1)
  }

  /** When the first line reads and the rest of the file reads, the whole file reads to the same end. */
  lemma {:induction false} ReadLinesCons(r: Reader, lines: seq<string>, r1: Reader)
    requires lines != [] && ReadLine(r, lines[0]) == Some(r1)
    requires ReadLines(r1, lines[1..]).Success?
    ensures ReadLines(r, lines) == ReadLines(r1, lines[1..])
  {
  }

  /** Every line before line `i` reads, and line `i` does not. */
  predicate StopsAt(r: Reader, lines: seq<string>, i: int) {
    && 0 <= i < |lines|
    && ReadLines(r, lines[..i]).Success?
    && ReadLine(ReadLines(r, lines[..i]).value, lines[i]).None?
  }

  /** A line that does not read is a face with a corner `stoi` rejects or that falls outside the pools. */
  lemma {:induction false} UnreadableLine(r: Reader, line: string)
    requires ReadLine(r, line).None?
    ensures FirstWord(line) == "f" && !FaceDefined(r.pools, Words(line))
  {
  }

  /** Stopping at line `j` after the first line is stopping at line `j + 1` of the whole file. */
  lemma {:induction false} StopsAtStep(r: Reader, lines: seq<string>, r1: Reader, j: int)
    requires lines != [] && ReadLine(r, lines[0]) == Some(r1)
    requires StopsAt(r1, lines[1..], j)
    ensures StopsAt(r, lines, j + 1)
  {
    PrefixOfRest(lines, j);
    ReadLinesCons(r, lines[..j + 1], r1);
  }

  /** The first `j + 1` elements are the first one followed by the first `j` of the rest. */
  lemma PrefixOfRest<T>(xs: seq<T>, j: int)
    requires 0 <= j < |xs| - 1
    ensures xs[..j + 1][0] == xs[0] && xs[..j + 1][1..] == xs[1..][..j]
    ensures xs[1..][j] == xs[j + 1]
  {
  }

  /**
   * A read fails only at the first line it cannot read: every line before it
   * reads, and that line is a face with a corner whose last part `stoi`
   * rejects or whose indices fall outside the pools filled so far.
   */
  lemma {:induction false} ReadLinesFailure(r: Reader, lines: seq<string>)
    requires ReadLines(r, lines).Failure?
    ensures StopsAt(r, lines, ReadLines(r, lines).error)
  {
    FailsAt(r, lines, ReadLines(r, lines).error);
  }

  lemma {:induction false} FailsAt(r: Reader, lines: seq<string>, i: int)
    requires ReadLines(r, lines).Failure? && ReadLines(r, lines).error == i
    ensures StopsAt(r, lines, i)
    decreases |lines|
  {
    if i == 0 {
      StopsAtFirst(r, lines);
    } else {
      var r1 := FirstLineReads(r, lines);
      var j := i - 1;
      FailsAt(r1, lines[1..], j);
      StopsAtStep(r, lines, r1, j);
      assert j + 1 == i;
    }
  }

  /** A read that fails at line 0 stops there. */
  lemma {:induction false} StopsAtFirst(r: Reader, lines: seq<string>)
    requires ReadLines(r, lines).Failure? && ReadLines(r, lines).error == 0
    ensures StopsAt(r, lines, 0)
  {
    assert lines[..0] == [];
  }

  /** A read that fails past line 0 reads line 0 and fails one line earlier in the rest. */
  lemma {:induction false} FirstLineReads(r: Reader, lines: seq<string>) returns (r1: Reader)
    requires ReadLines(r, lines).Failure? && ReadLines(r, lines).error != 0
    ensures lines != [] && ReadLine(r, lines[0]) == Some(r1)
    ensures ReadLines(r1, lines[1..]).Failure?
    ensures ReadLines(r, lines).error == ReadLines(r1, lines[1..]).error + 1
  {
    r1 := ReadLine(r, lines[0]).value;
  }

  /** The reading loop gives up only at an `f` line. */
  lemma ReadLinesStopsAtFace(r: Reader, lines: seq<string>)
    requires ReadLines(r, lines).Failure?
    ensures FirstWord(lines[ReadLines(r, lines).error]) == "f"
  {
    ReadLinesFailure(r, lines);
    var i := ReadLines(r, lines).error;
    UnreadableLine(ReadLines(r, lines[..i]).value, lines[i]);
  }

  /** The number of `f` lines. */
  function FaceCount(lines: seq<string>): nat {
    if lines == [] then 0
    else (if FirstWord(lines[0]) == "f" then 1 else 0) + FaceCount(lines[1..])
  }

  const NoPools := Pools([], [], [])

  /**
   * `readOBJFile`: starts from empty pools and appends to the mesh it is given.
   * Every face adds three indices and 33 floats; nothing else adds either.
   */
  function ReadOBJFile(file: Option<seq<string>>, mesh: Mesh): (res: Result<Mesh, ObjError>)
    ensures res == Failure(CannotOpen) <==> file.None?
    ensures res.Failure? && file.Some? ==>
      res.error.BadFace? && res.error.line < |file.value| && FirstWord(file.value[res.error.line]) == "f"
    ensures res.Success? ==>
      && mesh.indices <= res.value.indices
      && mesh.vbuffer <= res.value.vbuffer
      && |res.value.indices| == |mesh.indices| + 3 * FaceCount(file.value)
      && |res.value.vbuffer| == |mesh.vbuffer| + 3 * Stride * FaceCount(file.value)
  {
    match file
    case None => Failure(CannotOpen)
    case Some(lines) =>
      var r := Reader(NoPools, mesh);
      match ReadLines(r, lines)
      case Failure(i) =>
        ReadLinesStopsAtFace(r, lines);
        Failure(BadFace(i))
      case Success(r') =>
        ReadLinesCounts(r, lines);
        Success(r'.mesh)
  }

  /**
   * `BadFace(i)` names the first line `readOBJFile` cannot read: the lines
   * before it all read, and line `i` is a face that is not defined over the
   * pools those lines filled.
   */
  lemma BadFaceIsFirstUnreadable(lines: seq<string>, mesh: Mesh)
    requires ReadOBJFile(Some(lines), mesh).Failure?
    ensures var i := ReadOBJFile(Some(lines), mesh).error.line;
      && i < |lines|
      && ReadLines(Reader(NoPools, mesh), lines[..i]).Success?
      && FirstWord(lines[i]) == "f"
      && !FaceDefined(ReadLines(Reader(NoPools, mesh), lines[..i]).value.pools, Words(lines[i]))
  {
    var r := Reader(NoPools, mesh);
    ReadLinesFailure(r, lines);
    var i := ReadLines(r, lines).error;
    UnreadableLine(ReadLines(r, lines[..i]).value, lines[i]);
  }

  /** Appending lines only ever grows the mesh, by three indices and 33 floats per face. */
  lemma {:induction false} ReadLinesCounts(r: Reader, lines: seq<string>)
    ensures ReadLines(r, lines).Success? ==>
      var m, m' := r.mesh, ReadLines(r, lines).value.mesh;
      && m.indices <= m'.indices
      && m.vbuffer <= m'.vbuffer
      && |m'.indices| == |m.indices| + 3 * FaceCount(lines)
      && |m'.vbuffer| == |m.vbuffer| + 3 * Stride * FaceCount(lines)
    decreases |lines|
  {
    if lines != [] && ReadLines(r, lines).Success? {
      var r1 := ReadLine(r, lines[0]).value;
      ReadLinesCounts(r1, lines[1..]);
      assert ReadLines(r, lines) == ReadLines(r1, lines[1..]);
      var k := FaceCount(lines[1..]);
      assert 3 * Stride * FaceCount(lines) == (if FirstWord(lines[0]) == "f" then 33 else 0) + 33 * k;
    }
  }

  /** What one line adds to the position pool: the value of a `v` line, nothing for any other line. */
  function VertexOfLine(line: string): seq<Vec3> {
    if FirstWord(line) == "v" then [ReadVec3(Words(line))] else []
  }

  /** What one line adds to the texture-coordinate pool. */
  function TexCoordOfLine(line: string): seq<Vec2> {
    if FirstWord(line) == "vt" then [ReadVec2(Words(line))] else []
  }

  /** What one line adds to the normal pool. */
  function NormalOfLine(line: string): seq<Vec3> {
    if FirstWord(line) == "vn" then [ReadVec3(Words(line))] else []
  }

  /** The values of the `v` lines, in file order. */
  function VertexLines(lines: seq<string>): seq<Vec3>
    decreases |lines|
  {
    if lines == [] then [] else VertexOfLine(lines[0]) + VertexLines(lines[1..])
  }

  /** The values of the `vt` lines, in file order. */
  function TexCoordLines(lines: seq<string>): seq<Vec2>
    decreases |lines|
  {
    if lines == [] then [] else TexCoordOfLine(lines[0]) + TexCoordLines(lines[1..])
  }

  /** The values of the `vn` lines, in file order. */
  function NormalLines(lines: seq<string>): seq<Vec3>
    decreases |lines|
  {
    if lines == [] then [] else NormalOfLine(lines[0]) + NormalLines(lines[1..])
  }

  /** One line adds its value to its own pool and nothing to the others. */
  lemma PoolsOfLine(r: Reader, line: string)
    requires ReadLine(r, line).Some?
    ensures ReadLine(r, line).value.pools == Pools(
      r.pools.vertices + VertexOfLine(line),
      r.pools.texCoords + TexCoordOfLine(line),
      r.pools.normals + NormalOfLine(line))
  {
    var p := r.pools;
    assert p.vertices + [] == p.vertices && p.texCoords + [] == p.texCoords && p.normals + [] == p.normals;
  }

  /**
   * After a whole read each pool holds what it started with followed by the
   * values of its own lines in file order, so pool index `k` past the start
   * is the `k`-th `v`, `vt` or `vn` line; no other line adds to a pool.
   */
  lemma {:induction false} PoolsOfLines(r: Reader, lines: seq<string>)
    requires ReadLines(r, lines).Success?
    ensures ReadLines(r, lines).value.pools == Pools(
      r.pools.vertices + VertexLines(lines),
      r.pools.texCoords + TexCoordLines(lines),
      r.pools.normals + NormalLines(lines))
    decreases |lines|
  {
    var p := r.pools;
    if lines == [] {
      assert p.vertices + [] == p.vertices && p.texCoords + [] == p.texCoords && p.normals + [] == p.normals;
    } else {
      var line, rest := lines[0], lines[1..];
      var r1 := ReadLine(r, line).value;
      AppendAssoc(p.vertices, VertexOfLine(line), VertexLines(rest));
      AppendAssoc(p.texCoords, TexCoordOfLine(line), TexCoordLines(rest));
      AppendAssoc(p.normals, NormalOfLine(line), NormalLines(rest));
      ReadLinesStep(r, lines);
      PoolsOfLine(r, line);
      PoolsOfLines(r1, rest);
    }
  }

  lemma AppendAssoc<T>(a: seq<T>, b: seq<T>, c: seq<T>)
    ensures a + b + c == a + (b + c)
  {
  }

  /** The `k`-th 11-float record of a vertex buffer. */
  function Record(vb: seq<real>, k: nat): (rec: seq<real>)
    requires 11 * k + 11 <= |vb|
    ensures |rec| == Stride
  {
    vb[11 * k .. 11 * k + 11]
  }

  /** Record `k` starts with the position `ix[k]` designates, followed by the constant colour. */
  predicate RecordsMatch(ix: seq<int>, vb: seq<real>, vs: seq<Vec3>) {
    && |vb| == 11 * |ix|
    && forall k :: 0 <= k < |ix| ==>
         && 0 <= ix[k] < |vs|
         && Record(vb, k)[..3] == XYZ(vs[ix[k]])
         && Record(vb, k)[3..6] == Colour
  }

  /**
   * The vertex buffer is the interleaved array `initializeBuffers` describes:
   * one 11-float record per index, whose first three floats are the position
   * the index designates and whose next three are the constant colour.
   */
  predicate Interleaved(r: Reader) {
    RecordsMatch(r.mesh.indices, r.mesh.vbuffer, r.pools.vertices)
  }

  /** Appending whole records for in-range positions keeps the buffer interleaved. */
  lemma AppendRecords(ix: seq<int>, vb: seq<real>, vs: seq<Vec3>, added: seq<int>, es: seq<real>)
    requires RecordsMatch(ix, vb, vs)
    requires RecordsMatch(added, es, vs)
    ensures RecordsMatch(ix + added, vb + es, vs)
  {
    var ix', vb' := ix + added, vb + es;
    forall k | 0 <= k < |ix'|
      ensures 0 <= ix'[k] < |vs|
      ensures Record(vb', k)[..3] == XYZ(vs[ix'[k]])
      ensures Record(vb', k)[3..6] == Colour
    {
      if k < |ix| {
        assert ix'[k] == ix[k];
        assert Record(vb', k) == Record(vb, k);
      } else {
        var j := k - |ix|;
        assert ix'[k] == added[j];
        RecordOfAppended(vb, es, |ix|, j);
      }
    }
  }

  /** Record `n + j` of `vb + es`, when `vb` holds exactly `n` records, is record `j` of `es`. */
  lemma RecordOfAppended(vb: seq<real>, es: seq<real>, n: nat, j: nat)
    requires |vb| == 11 * n && 11 * j + 11 <= |es|
    ensures Record(vb + es, n + j) == Record(es, j)
  {
    assert 11 * (n + j) == |vb| + 11 * j;
    forall t | 0 <= t < 11 ensures Record(vb + es, n + j)[t] == Record(es, j)[t] {
    }
  }

  /** Appending in-pool corners keeps the vertex buffer interleaved. */
  lemma {:induction false} AppendCornersLayout(p: Pools, m: Mesh, cs: seq<Corner>)
    requires AllInPools(p, cs)
    requires Interleaved(Reader(p, m))
    ensures Interleaved(Reader(p, AppendCorners(p, m, cs)))
    decreases |cs|
  {
    if cs != [] {
      var c := cs[|cs| - 1];
      var m1 := AppendCorners(p, m, cs[..|cs| - 1]);
      AppendCornersLayout(p, m, cs[..|cs| - 1]);
      var e := CornerEntries(p, c);
      assert Record(e, 0) == e;
      AppendRecords(m1.indices, m1.vbuffer, p.vertices, [c.position], e);
    }
  }

  /** Growing the position pool keeps every record's position. */
  lemma GrowPoolsLayout(ix: seq<int>, vb: seq<real>, vs: seq<Vec3>, vs': seq<Vec3>)
    requires RecordsMatch(ix, vb, vs)
    requires vs <= vs'
    ensures RecordsMatch(ix, vb, vs')
  {
    forall k | 0 <= k < |ix|
      ensures vs'[ix[k]] == vs[ix[k]]
    {
    }
  }

  /** One line keeps the vertex buffer interleaved. */
  lemma ReadWordsLayout(r: Reader, ws: seq<string>)
    requires Interleaved(r)
    requires ReadWords(r, ws).Some?
    ensures Interleaved(ReadWords(r, ws).value)
  {
    var r' := ReadWords(r, ws).value;
    if WordOr(ws, 0, "") == "f" {
      assert FaceDefined(r.pools, ws);
      assert AppendFace(r.pools, r.mesh, ws) == AppendCorners(r.pools, r.mesh, FaceCorners(ws));
      AppendCornersLayout(r.pools, r.mesh, FaceCorners(ws));
    } else {
      assert r'.mesh.indices == r.mesh.indices && r'.mesh.vbuffer == r.mesh.vbuffer;
      GrowPoolsLayout(r.mesh.indices, r.mesh.vbuffer, r.pools.vertices, r'.pools.vertices);
    }
  }

  /** Every prefix of the file keeps the vertex buffer interleaved. */
  lemma {:induction false} ReadLinesLayout(r: Reader, lines: seq<string>)
    requires Interleaved(r)
    requires ReadLines(r, lines).Success?
    ensures Interleaved(ReadLines(r, lines).value)
    decreases |lines|
  {
    if lines != [] {
      ReadWordsLayout(r, Words(lines[0]));
      ReadLinesLayout(ReadLine(r, lines[0]).value, lines[1..]);
    }
  }

  /**
   * Read from empty pools, the pools are the file's `v`, `vt` and `vn` values
   * in order, and record `k` of the buffer starts with the position of the
   * `v` line that index `k` names.
   */
  lemma LoadedPositions(lines: seq<string>, mesh: Mesh)
    requires mesh.indices == [] && mesh.vbuffer == []
    requires ReadLines(Reader(NoPools, mesh), lines).Success?
    ensures var r := ReadLines(Reader(NoPools, mesh), lines).value;
      && r.pools == Pools(VertexLines(lines), TexCoordLines(lines), NormalLines(lines))
      && RecordsMatch(r.mesh.indices, r.mesh.vbuffer, VertexLines(lines))
  {
    var r := Reader(NoPools, mesh);
    PoolsOfLines(r, lines);
    assert [] + VertexLines(lines) == VertexLines(lines);
    assert [] + TexCoordLines(lines) == TexCoordLines(lines);
    assert [] + NormalLines(lines) == NormalLines(lines);
    ReadLinesLayout(r, lines);
  }

  /**
   * What `loadSimpleOBJ` passes on: `numVertices` equals the number of
   * indices, and record `k` of the buffer is the position of index `k`.
   */
  lemma LoadedLayout(lines: seq<string>, materialFile: string, materialName: string)
    requires ReadLines(Reader(NoPools, Mesh([], [], materialFile, materialName)), lines).Success?
    ensures var r := ReadLines(Reader(NoPools, Mesh([], [], materialFile, materialName)), lines).value;
      && Interleaved(r)
      && LoadSimpleOBJ(Some(lines), materialFile, materialName)
         == Success(Loaded(|r.mesh.indices|, r.mesh.materialFile, r.mesh.materialName))
  {
    var r := Reader(NoPools, Mesh([], [], materialFile, materialName));
    ReadLinesLayout(r, lines);
    var m := ReadLines(r, lines).value.mesh;
    assert ReadOBJFile(Some(lines), r.mesh) == Success(m);
    assert |m.vbuffer| == Stride * |m.indices|;
    assert |m.vbuffer| / Stride == |m.indices|;
  }

  /** The material file or material name, whichever `keyword` sets. */
  function NameSetBy(m: Mesh, keyword: string): string {
    if keyword == "mtllib" then m.materialFile else m.materialName
  }

  /** Line `i` is the last line that sets the name `keyword` stands for. */
  predicate LastSetter(lines: seq<string>, keyword: string, i: int) {
    && 0 <= i < |lines|
    && SetsName(Words(lines[i]), keyword)
    && forall j :: i < j < |lines| ==> !SetsName(Words(lines[j]), keyword)
  }

  /** The reading loop reads the first line, then the rest. */
  lemma ReadLinesStep(r: Reader, lines: seq<string>)
    requires lines != []
    requires ReadLines(r, lines).Success?
    ensures ReadLine(r, lines[0]).Some?
    ensures ReadLines(r, lines) == ReadLines(ReadLine(r, lines[0]).value, lines[1..])
  {
  }

  /** One line sets the name `keyword` stands for exactly when it is that keyword with an argument. */
  lemma NameStep(r: Reader, line: string, keyword: string)
    requires keyword == "mtllib" || keyword == "usemtl"
    requires ReadLine(r, line).Some?
    ensures NameSetBy(ReadLine(r, line).value.mesh, keyword)
      == if SetsName(Words(line), keyword) then Words(line)[1] else NameSetBy(r.mesh, keyword)
  {
  }

  /**
   * The material file and material name are those of the last `mtllib` and
   * `usemtl` line that has an argument; with no such line they are what the
   * caller passed in.
   */
  lemma {:induction false} LastNameWins(r: Reader, lines: seq<string>, keyword: string)
    requires keyword == "mtllib" || keyword == "usemtl"
    requires ReadLines(r, lines).Success?
    ensures forall i :: LastSetter(lines, keyword, i) ==>
      NameSetBy(ReadLines(r, lines).value.mesh, keyword) == Words(lines[i])[1]
    ensures (forall i :: 0 <= i < |lines| ==> !SetsName(Words(lines[i]), keyword)) ==>
      NameSetBy(ReadLines(r, lines).value.mesh, keyword) == NameSetBy(r.mesh, keyword)
    decreases |lines|
  {
    if lines != [] {
      ReadLinesStep(r, lines);
      var r1 := ReadLine(r, lines[0]).value;
      var rest := lines[1..];
      NameStep(r, lines[0], keyword);
      LastNameWins(r1, rest, keyword);
      var name := NameSetBy(ReadLines(r1, rest).value.mesh, keyword);
      forall i | LastSetter(lines, keyword, i)
        ensures name == Words(lines[i])[1]
      {
        LastSetterOfRest(lines, keyword, i);
      }
      if forall i :: 0 <= i < |lines| ==> !SetsName(Words(lines[i]), keyword) {
        NoSetterInRest(lines, keyword);
      }
    }
  }

  /** The last setter of a file is the first line, with no setter after it, or the last setter of the rest. */
  lemma LastSetterOfRest(lines: seq<string>, keyword: string, i: int)
    requires LastSetter(lines, keyword, i)
    ensures i == 0 ==> forall j :: 0 <= j < |lines| - 1 ==> !SetsName(Words(lines[1..][j]), keyword)
    ensures i > 0 ==> LastSetter(lines[1..], keyword, i - 1)
  {
    var rest := lines[1..];
    assert forall j :: 0 <= j < |rest| ==> rest[j] == lines[j + 1];
  }

  /** A file with no setter has none in its first line and none in the rest. */
  lemma NoSetterInRest(lines: seq<string>, keyword: string)
    requires lines != [] && forall i :: 0 <= i < |lines| ==> !SetsName(Words(lines[i]), keyword)
    ensures !SetsName(Words(lines[0]), keyword)
    ensures forall j :: 0 <= j < |lines| - 1 ==> !SetsName(Words(lines[1..][j]), keyword)
  {
    var rest := lines[1..];
    assert forall j :: 0 <= j < |rest| ==> rest[j] == lines[j + 1];
  }

  /** The token an exporter writes for a corner with one-based indices `v/vt/vn`. */
  function CornerToken(c: Corner): string
    requires c.position >= 1 && c.texCoord >= 1 && c.normal >= 1
  {
    Decimal(c.position) + "/" + Decimal(c.texCoord) + "/" + Decimal(c.normal)
  }

  /** The zero-based pool indices a one-based corner designates. */
  function ZeroBased(c: Corner): Corner {
    Corner(c.position - 1, c.texCoord - 1, c.normal - 1)
  }

  predicate OneBased(c: Corner) {
    c.position >= 1 && c.texCoord >= 1 && c.normal >= 1
  }

  /** Three corners append their positions and records in order. */
  lemma AppendThree(p: Pools, m: Mesh, z0: Corner, z1: Corner, z2: Corner)
    requires InPools(p, z0) && InPools(p, z1) && InPools(p, z2)
    ensures AppendCorners(p, m, [z0, z1, z2]) == m.(
      indices := m.indices + [z0.position, z1.position, z2.position],
      vbuffer := m.vbuffer + CornerEntries(p, z0) + CornerEntries(p, z1) + CornerEntries(p, z2))
  {
    var e0, e1, e2 := CornerEntries(p, z0), CornerEntries(p, z1), CornerEntries(p, z2);
    assert [z0][..0] == [];
    assert AppendCorners(p, m, [z0]) == m.(indices := m.indices + [z0.position], vbuffer := m.vbuffer + e0);
    assert [z0, z1][..1] == [z0];
    assert AppendCorners(p, m, [z0, z1])
      == m.(indices := m.indices + [z0.position] + [z1.position], vbuffer := m.vbuffer + e0 + e1);
    assert [z0, z1, z2][..2] == [z0, z1];
    assert AppendCorners(p, m, [z0, z1, z2])
      == m.(indices := m.indices + [z0.position] + [z1.position] + [z2.position], vbuffer := m.vbuffer + e0 + e1 + e2);
    assert m.indices + [z0.position] + [z1.position] + [z2.position] == m.indices + [z0.position, z1.position, z2.position];
  }

  /** A written corner token is read back as its indices less one. */
  lemma ParseCornerToken(c: Corner)
    requires OneBased(c)
    ensures ParseCorner(CornerToken(c)) == ZeroBased(c)
  {
    var a, b, n := Decimal(c.position), Decimal(c.texCoord), Decimal(c.normal);
    var rest := b + ['/'] + n;
    assert CornerToken(c) == a + ['/'] + rest;
    AtoiDecimal(c.position);
    AtoiDecimal(c.texCoord);
    AtoiDecimal(c.normal);
    BeforeSeparator(a, '/', rest);
    BeforeSeparator(b, '/', n);
  }

  /** `stoi` accepts the normal index of a written corner token. */
  lemma CornerTokenConverts(c: Corner)
    requires OneBased(c)
    ensures StoiConverts(AfterLast(CornerToken(c), '/'))
  {
    var a, b, n := Decimal(c.position), Decimal(c.texCoord), Decimal(c.normal);
    assert CornerToken(c) == (a + ['/'] + b) + ['/'] + n;
    AfterLastSeparator(a + ['/'] + b, '/', n);
    AtoiDecimal(c.normal);
  }

  /** A written corner token is a single word. */
  lemma CornerTokenIsWord(c: Corner)
    requires OneBased(c)
    ensures IsWord(CornerToken(c))
  {
    var a, b, n := Decimal(c.position), Decimal(c.texCoord), Decimal(c.normal);
    AtoiDecimal(c.position);
    AtoiDecimal(c.texCoord);
    AtoiDecimal(c.normal);
    GluedWord(b, '/', n);
    GluedWord(a, '/', b + ['/'] + n);
    assert CornerToken(c) == a + ['/'] + (b + ['/'] + n);
  }

  /** The face line an exporter writes for three one-based corners. */
  function FaceLine(c0: Corner, c1: Corner, c2: Corner): string
    requires OneBased(c0) && OneBased(c1) && OneBased(c2)
  {
    Unwords(["f", CornerToken(c0), CornerToken(c1), CornerToken(c2)])
  }

  /** The reader sees a written face line as an `f` word followed by the three written corners. */
  lemma FaceLineWords(c0: Corner, c1: Corner, c2: Corner)
    requires OneBased(c0) && OneBased(c1) && OneBased(c2)
    ensures var ws := Words(FaceLine(c0, c1, c2));
      && WordOr(ws, 0, "") == "f"
      && TokensConvert(ws)
      && FaceCorners(ws) == [ZeroBased(c0), ZeroBased(c1), ZeroBased(c2)]
  {
    var ws := ["f", CornerToken(c0), CornerToken(c1), CornerToken(c2)];
    assert IsWord("f");
    CornerTokenIsWord(c0);
    CornerTokenIsWord(c1);
    CornerTokenIsWord(c2);
    WordsOfUnwords(ws);
    assert FaceTokens(ws) == [CornerToken(c0), CornerToken(c1), CornerToken(c2)];
    assert TokensConvert(ws) by {
      CornerTokenConverts(c0);
      CornerTokenConverts(c1);
      CornerTokenConverts(c2);
      assert FaceTokens(ws)[0] == CornerToken(c0);
      assert FaceTokens(ws)[1] == CornerToken(c1);
      assert FaceTokens(ws)[2] == CornerToken(c2);
    }
    ParseCornerToken(c0);
    ParseCornerToken(c1);
    ParseCornerToken(c2);
  }

  /** The expected 11 floats of a one-based corner, written out field by field. */
  function ExpectedRecord(p: Pools, c: Corner): seq<real>
    requires InPools(p, ZeroBased(c))
  {
    XYZ(p.vertices[c.position - 1]) + [1.0, 0.0, 1.0] + ST(p.texCoords[c.texCoord - 1]) + XYZ(p.normals[c.normal - 1])
  }

  /** Three corners lie inside the pools exactly when each of them does. */
  lemma ThreeInPools(p: Pools, cs: seq<Corner>, z0: Corner, z1: Corner, z2: Corner)
    requires cs == [z0, z1, z2]
    ensures AllInPools(p, cs) <==> InPools(p, z0) && InPools(p, z1) && InPools(p, z2)
  {
    assert cs[0] == z0 && cs[1] == z1 && cs[2] == z2;
  }

  /** A readable face appends its corners. */
  lemma ReadDefinedFace(r: Reader, ws: seq<string>)
    requires WordOr(ws, 0, "") == "f"
    requires FaceDefined(r.pools, ws)
    ensures ReadWords(r, ws) == Some(Reader(r.pools, AppendCorners(r.pools, r.mesh, FaceCorners(ws))))
  {
  }

  /** A written corner's record is the 11 floats listed field by field. */
  lemma ExpectedRecordIsEntries(p: Pools, c: Corner)
    requires InPools(p, ZeroBased(c))
    ensures CornerEntries(p, ZeroBased(c)) == ExpectedRecord(p, c)
  {
  }

  /** A face whose tokens convert reads as its three corners, or aborts when one lies outside the pools. */
  lemma ReadFaceWords(r: Reader, ws: seq<string>, c0: Corner, c1: Corner, c2: Corner)
    requires WordOr(ws, 0, "") == "f" && TokensConvert(ws)
    requires FaceCorners(ws) == [ZeroBased(c0), ZeroBased(c1), ZeroBased(c2)]
    ensures
      var p, m := r.pools, r.mesh;
      if InPools(p, ZeroBased(c0)) && InPools(p, ZeroBased(c1)) && InPools(p, ZeroBased(c2)) then
        ReadWords(r, ws) == Some(Reader(p, m.(
          indices := m.indices + [c0.position - 1, c1.position - 1, c2.position - 1],
          vbuffer := m.vbuffer + ExpectedRecord(p, c0) + ExpectedRecord(p, c1) + ExpectedRecord(p, c2))))
      else
        ReadWords(r, ws) == None
  {
    var p, m := r.pools, r.mesh;
    var z0, z1, z2 := ZeroBased(c0), ZeroBased(c1), ZeroBased(c2);
    ThreeInPools(p, FaceCorners(ws), z0, z1, z2);
    if InPools(p, z0) && InPools(p, z1) && InPools(p, z2) {
      ReadDefinedFace(r, ws);
      AppendThree(p, m, z0, z1, z2);
      ExpectedRecordIsEntries(p, c0);
      ExpectedRecordIsEntries(p, c1);
      ExpectedRecordIsEntries(p, c2);
    }
  }

  /**
   * A face line as an exporter writes it, `f v/vt/vn v/vt/vn v/vt/vn` with
   * one-based indices, appends each corner's position index less one and, per
   * corner, the position xyz, the colour (1, 0, 1), the texture coordinate st
   * and the normal xyz; a corner outside the pools aborts the reader.
   */
  lemma FaceLineRoundTrip(r: Reader, c0: Corner, c1: Corner, c2: Corner)
    requires OneBased(c0) && OneBased(c1) && OneBased(c2)
    ensures
      var p, m := r.pools, r.mesh;
      if InPools(p, ZeroBased(c0)) && InPools(p, ZeroBased(c1)) && InPools(p, ZeroBased(c2)) then
        ReadLine(r, FaceLine(c0, c1, c2)) == Some(Reader(p, m.(
          indices := m.indices + [c0.position - 1, c1.position - 1, c2.position - 1],
          vbuffer := m.vbuffer + ExpectedRecord(p, c0) + ExpectedRecord(p, c1) + ExpectedRecord(p, c2))))
      else
        ReadLine(r, FaceLine(c0, c1, c2)) == None
  {
    FaceLineWords(c0, c1, c2);
    ReadFaceWords(r, Words(FaceLine(c0, c1, c2)), c0, c1, c2);
  }

  /** What `loadSimpleOBJ` keeps: the vertex count it draws with and the material names. */
  datatype Loaded = Loaded(numVertices: int, materialFile: string, materialName: string)

  /**
   * `loadSimpleOBJ`: reads into empty buffers and counts the vertices as the
   * buffer length divided by the stride, which is three per face.
   */
  function LoadSimpleOBJ(file: Option<seq<string>>, materialFile: string, materialName: string): (res: Result<Loaded, ObjError>)
    ensures res == Failure(CannotOpen) <==> file.None?
    ensures res.Success? ==> res.value.numVertices == 3 * FaceCount(file.value)
  {
    match ReadOBJFile(file, Mesh([], [], materialFile, materialName))
    case Failure(e) => Failure(e)
    case Success(m) => Success(Loaded(|m.vbuffer| / Stride, m.materialFile, m.materialName))
  }
}

=== FILE: placement.dfy ===
/**
 * Modulo4's `generateSceneObjects`: `numObjects` copies of one mesh laid out
 * on the X axis, alternating left and right of the origin. Object `i` sits in
 * an integer slot; its x coordinate is the slot times the 2.75 spacing.
 */
module Placement {

  /** The slot of object `i`: 0, 1, -1, 2, -2, 3, ... */
  function Slot(i: nat): int {
    if i % 2 == 0 then -(i / 2) else i / 2 + 1
  }

  /** The object whose slot is `s`: the inverse of `Slot`. */
  function IndexOfSlot(s: int): nat {
    if s <= 0 then -2 * s else 2 * s - 1
  }

  /** `Slot` and `IndexOfSlot` undo each other, so distinct objects never share a slot. */
  lemma SlotBijection(i: nat, s: int)
    ensures IndexOfSlot(Slot(i)) == i
    ensures Slot(IndexOfSlot(s)) == s
  {
  }

  /** Distinct objects sit in distinct slots. */
  lemma SlotInjective(i: nat, j: nat)
    requires i != j
    ensures Slot(i) != Slot(j)
  {
    SlotBijection(i, 0);
    SlotBijection(j, 0);
  }

  /**
   * The first `n` objects fill exactly the slots from -((n - 1) / 2) to n / 2,
   * one object per slot.
   */
  lemma SlotsOfFirst(n: nat, i: nat, s: int)
    ensures i < n ==> -((n - 1) / 2) <= Slot(i) <= n / 2
    ensures n > 0 && -((n - 1) / 2) <= s <= n / 2 ==> IndexOfSlot(s) < n && Slot(IndexOfSlot(s)) == s
  {
    SlotBijection(i, s);
  }

  /** The spacing between neighbouring slots, 2.75. */
  const Spacing: real := 2.75

  /** The shared parts of every copy: vertex array, vertex count, shader and texture handles. */
  datatype DrawMesh = DrawMesh(vertexArray: int, numVertices: int, shader: int, texture: int)

  /** One placed copy; its y and z are 0. */
  datatype SceneObject = SceneObject(mesh: DrawMesh, x: real)

  /**
   * `generateSceneObjects`: one object per index below `numObjects` (none
   * when it is not positive), each at its slot's x and sharing the mesh.
   */
  method GenerateSceneObjects(numObjects: int, mesh: DrawMesh) returns (objects: seq<SceneObject>)
    ensures |objects| == if numObjects > 0 then numObjects else 0
    ensures forall i :: 0 <= i < |objects| ==> objects[i].mesh == mesh
    ensures forall i :: 0 <= i < |objects| ==> objects[i].x == Slot(i) as real * Spacing
  {
    objects := [];
    var i := 0;
    while i < numObjects
      invariant 0 <= i <= (if numObjects > 0 then numObjects else 0)
      invariant |objects| == i
      invariant forall k :: 0 <= k < i ==> objects[k].mesh == mesh
      invariant forall k :: 0 <= k < i ==> objects[k].x == Slot(k) as real * Spacing
    {
      var xPosition := 0.0;
      if i % 2 == 0 {
        xPosition := (-Spacing) * (i / 2) as real;
      } else {
        xPosition := Spacing * (i / 2 + 1) as real;
      }
      objects := objects + [SceneObject(mesh, xPosition)];
      i := i + 1;
    }
  }

  /** Object 0 sits at the origin, and no two objects share an x coordinate. */
  lemma PlacementDistinct(i: nat, j: nat)
    ensures Slot(0) as real * Spacing == 0.0
    ensures i != j ==> Slot(i) as real * Spacing != Slot(j) as real * Spacing
  {
    if i != j {
      SlotInjective(i, j);
    }
  }
}

=== FILE: scene_frame.dfy ===
/**
 * One pass of GrauB's main loop: reset the translation flags, handle the
 * frame's key events, then walk the scene deciding, object by object, which
 * transformation calls it receives, advance the curve followers, and reset
 * the scale step. The transformation calls themselves (spinning, moving,
 * scaling, the Bezier point) belong to classes this model does not include;
 * only which ones are made, and with what arguments, is recorded.
 */
module SceneFrame {
  import opened Wrappers
  import opened Keys
  import opened Translation
  import opened SceneInput

  /** C++'s `%` on `int`: the remainder takes the sign of the dividend. */
  function CppRem(a: int, b: int): (r: int)
    requires b > 0
    ensures a >= 0 ==> 0 <= r < b
    ensures a < 0 ==> -b < r <= 0
    ensures 0 <= a < b ==> r == a
    ensures -b < a < 0 ==> r == a
    ensures a == b ==> r == 0
    ensures a == CppQuot(a, b) * b + r
  {
    if a >= 0 then
      RemOfSmall(a, b);
      assert a == (a / b) * b + a % b;
      a % b
    else
      RemOfSmall(-a, b);
      var q, m := (-a) / b, (-a) % b;
      assert -a == q * b + m;
      assert (-q) * b == -(q * b);
      -m
  }

  /** C++'s `/` on `int`: the quotient is truncated toward zero. */
  function CppQuot(a: int, b: int): int
    requires b > 0
  {
    if a >= 0 then a / b else -((-a) / b)
  }

  /** A non-negative dividend below the divisor is its own remainder. */
  lemma RemOfSmall(a: nat, b: int)
    requires b > 0
    ensures a < b ==> a % b == a
  {
    if a < b {
      assert a / b == 0;
    }
  }

  /** The calls one object receives in a frame. */
  datatype Calls = Calls(
    spin: Option<Axis>,                 // rotateX / rotateY / rotateZ
    move: Option<(Axis, int)>,          // translateX / translateY / translateZ with the direction
    rescale: Option<real>,              // updateScale with the pending step
    curvePoint: Option<int>)            // getPointOnCurve(iPoint), then updatePosition

  /** The axis a spin tag names; any tag but "x", "y", "z" spins nothing. */
  function SpinAxis(tag: string): Option<Axis> {
    if tag == "x" then Some(XAxis) else if tag == "y" then Some(YAxis) else if tag == "z" then Some(ZAxis) else None
  }

  /** The object follows its curve this frame. */
  predicate Playing(o: SceneObj) {
    o.playCurve && o.nbCurve > 0
  }

  /** The object belongs to the selected object's group, which must be non-negative. */
  predicate Targeted(group: Option<int>, o: SceneObj) {
    group.Some? && group.value >= 0 && group.value == o.transfObjectId
  }

  /** The object after the frame: a curve follower moves on to its next point, wrapping at `nbCurve`. */
  function Advance(o: SceneObj): (o': SceneObj)
    ensures o' == o.(iPoint := o'.iPoint)
    ensures !Playing(o) ==> o' == o
    ensures Playing(o) && 0 <= o.iPoint < o.nbCurve ==> 0 <= o'.iPoint < o.nbCurve
    ensures Playing(o) && 0 <= o.iPoint < o.nbCurve - 1 ==> o'.iPoint == o.iPoint + 1
    ensures Playing(o) && o.iPoint == o.nbCurve - 1 ==> o'.iPoint == 0
  {
    if Playing(o) then o.(iPoint := CppRem(o.iPoint + 1, o.nbCurve)) else o
  }

  /**
   * The loop body for one object: it spins about the axis its tag names; if
   * it belongs to the selected group it moves along the active translation
   * axis (unless it is following its curve) and takes the scale step; a
   * curve follower is placed at its current point and advances.
   */
  function UpdateObject(o: SceneObj, group: Option<int>, t: Flags, scale: real): (r: (SceneObj, Calls))
    ensures r.0 == Advance(o)
    ensures r.1.spin == SpinAxis(o.rotate)
    ensures r.1.rescale.Some? <==> Targeted(group, o)
    ensures r.1.rescale.Some? ==> r.1.rescale.value == scale
    ensures r.1.move.Some? <==> Targeted(group, o) && !Playing(o) && (t.x || t.y || t.z)
    ensures t.Valid() && r.1.move.Some? ==> Some(r.1.move.value.0) == t.Active() && r.1.move.value.1 == t.direction
    ensures r.1.curvePoint == if Playing(o) then Some(o.iPoint) else None
  {
    var targeted := Targeted(group, o);
    var move :=
      if !targeted || Playing(o) then None
      else if t.x then Some((XAxis, t.direction))
      else if t.y then Some((YAxis, t.direction))
      else if t.z then Some((ZAxis, t.direction))
      else None;
    var rescale := if targeted then Some(scale) else None;
    var curvePoint := if Playing(o) then Some(o.iPoint) else None;
    (Advance(o), Calls(SpinAxis(o.rotate), move, rescale, curvePoint))
  }

  /** The loop over the whole scene, in order. */
  function UpdateAll(objects: seq<SceneObj>, group: Option<int>, t: Flags, scale: real): (r: (seq<SceneObj>, seq<Calls>))
    ensures |r.0| == |objects| && |r.1| == |objects|
    ensures forall i :: 0 <= i < |objects| ==> (r.0[i], r.1[i]) == UpdateObject(objects[i], group, t, scale)
    decreases |objects|
  {
    if objects == [] then ([], [])
    else
      var (o, calls) := UpdateObject(objects[0], group, t, scale);
      var (rest, restCalls) := UpdateAll(objects[1..], group, t, scale);
      ([o] + rest, [calls] + restCalls)
  }

  /** The group of the selected object, if any. */
  function SelectedGroup(c: Controls): Option<int>
    requires c.Valid()
  {
    match c.selected
    case Some(i) => Some(c.objects[i].transfObjectId)
    case None => None
  }

  /**
   * The scene walk after the events: every object is updated against the
   * selected group, and the scale step is reset to 0 afterwards.
   */
  function UpdateScene(c: Controls): (r: (Controls, seq<Calls>))
    requires c.Valid()
    ensures r.0.Valid()
    ensures r.0 == c.(objects := r.0.objects, scale := 0.0)
    ensures |r.0.objects| == |c.objects| && |r.1| == |c.objects|
    ensures forall i :: 0 <= i < |c.objects| ==> r.0.objects[i] == Advance(c.objects[i])
    ensures forall i :: 0 <= i < |c.objects| ==>
      (r.0.objects[i], r.1[i]) == UpdateObject(c.objects[i], SelectedGroup(c), c.translation, c.scale)
    ensures forall i :: 0 <= i < |c.objects| ==>
      (r.1[i].move.Some? || r.1[i].rescale.Some?) ==> Targeted(SelectedGroup(c), c.objects[i])
    ensures forall i :: 0 <= i < |c.objects| ==>
      r.1[i].rescale == (if Targeted(SelectedGroup(c), c.objects[i]) then Some(c.scale) else None)
    ensures forall i :: 0 <= i < |c.objects| ==>
      (r.1[i].move.Some? <==> Targeted(SelectedGroup(c), c.objects[i]) && !Playing(c.objects[i])
                               && (c.translation.x || c.translation.y || c.translation.z))
  {
    var (objects, calls) := UpdateAll(c.objects, SelectedGroup(c), c.translation, c.scale);
    (c.(objects := objects, scale := 0.0), calls)
  }

  /**
   * The selected object is always reached when its group is non-negative: it
   * takes the scale step, and it moves with the active flags unless it is
   * following its curve.
   */
  lemma SelectedIsTransformed(c: Controls)
    requires c.Valid() && c.selected.Some?
    requires c.objects[c.selected.value].transfObjectId >= 0
    ensures var i := c.selected.value;
      && UpdateScene(c).1[i].rescale == Some(c.scale)
      && (UpdateScene(c).1[i].move.Some? <==> !Playing(c.objects[i]) && (c.translation.x || c.translation.y || c.translation.z))
  {
  }

  /** Objects outside the selected group, or every object when the group is negative or nothing is selected, are neither moved nor scaled. */
  lemma OthersUntransformed(c: Controls, i: nat)
    requires c.Valid() && i < |c.objects|
    requires !Targeted(SelectedGroup(c), c.objects[i])
    ensures UpdateScene(c).1[i].move.None? && UpdateScene(c).1[i].rescale.None?
  {
  }

  /** A whole frame: translation reset, events handled, scene walked, scale step reset. */
  function Frame(c: Controls, events: seq<KeyEvent>): (r: (Controls, seq<Calls>))
    requires c.Valid()
    ensures r.0.Valid() && |r.0.objects| == |c.objects| && |r.1| == |c.objects|
    ensures r.0.scale == 0.0
  {
    UpdateScene(KeyCallbacks(c.(translation := Reset), events))
  }

  /** `n` frames of curve following for one object. */
  function AdvanceN(o: SceneObj, n: nat): SceneObj {
    if n == 0 then o else Advance(AdvanceN(o, n - 1))
  }

  /**
   * Within one lap, following the curve for `n` frames from a point in range
   * moves `n` points on, wrapping past the last point to the first.
   */
  lemma {:induction false} AdvanceNPoint(o: SceneObj, n: nat)
    requires Playing(o) && 0 <= o.iPoint < o.nbCurve && n <= o.nbCurve
    ensures AdvanceN(o, n) == o.(iPoint := if o.iPoint + n < o.nbCurve then o.iPoint + n else o.iPoint + n - o.nbCurve)
  {
    if n > 0 {
      AdvanceNPoint(o, n - 1);
    }
  }

  /** After `nbCurve` frames a curve follower is back at the point it started from. */
  lemma CurveReturns(o: SceneObj)
    requires Playing(o) && 0 <= o.iPoint < o.nbCurve
    ensures AdvanceN(o, o.nbCurve) == o
  {
    AdvanceNPoint(o, o.nbCurve);
  }
}

=== FILE: scene_input.dfy ===
/**
 * GrauB's keyboard state: a scene of objects, the selected one (a pointer
 * into the scene, here an index), the translation flags, the pending scale
 * step and whether the window should close; with the key handlers that
 * update it.
 */
module SceneInput {
  import opened Wrappers
  import opened Keys
  import opened Translation

  /**
   * The parts of a scene object the input handlers and the frame update read
   * or write: its transformation group, its spin tag ("x", "y", "z" or
   * anything else for none), whether it follows its curve, the number of curve
   * points, and the current point.
   */
  datatype SceneObj = SceneObj(transfObjectId: int, rotate: string, playCurve: bool, nbCurve: int, iPoint: int)

  datatype Controls = Controls(objects: seq<SceneObj>, selected: Option<nat>, translation: Flags, scale: real, closing: bool) {

    /** The selection points at an object of the scene and the translation flags are consistent. */
    predicate Valid() {
      (selected.Some? ==> selected.value < |objects|) && translation.Valid()
    }
  }

  /** Before any key: nothing selected, nothing moving, no scale step. */
  function Initial(objects: seq<SceneObj>): (c: Controls)
    ensures c.Valid()
  {
    Controls(objects, None, Reset, 0.0, false)
  }

  /** `adjustScale`: keypad + adds 0.05 to the pending scale step, keypad - subtracts it. */
  function AdjustScale(scale: real, key: int): (s: real)
    ensures key == KeypadAdd ==> s - scale == 0.05
    ensures key == KeypadSubtract ==> scale - s == 0.05
    ensures key != KeypadAdd && key != KeypadSubtract ==> s == scale
  {
    var scaleFactor := 0.05;
    if key == KeypadAdd then scale + scaleFactor
    else if key == KeypadSubtract then scale - scaleFactor
    else scale
  }

  /** Keypad + then keypad - cancel out, unlike the viewer's proportional steps. */
  lemma ScaleStepsCancel(scale: real)
    ensures AdjustScale(AdjustScale(scale, KeypadAdd), KeypadSubtract) == scale
  {
  }

  /** The spin tag a key selects, if it selects one. */
  function RotationTag(key: int): (tag: Option<string>)
    ensures tag.Some? <==> key == X || key == Y || key == Z
  {
    if key == X then Some("x") else if key == Y then Some("y") else if key == Z then Some("z") else None
  }

  /** Apart from the selected object, the scene and the other fields are as they were. */
  predicate OthersUnchanged(c: Controls, d: Controls)
  {
    && d == c.(objects := d.objects)
    && |d.objects| == |c.objects|
    && forall i :: 0 <= i < |c.objects| && c.selected != Some(i) ==> d.objects[i] == c.objects[i]
  }

  /**
   * `adjustRotation`: with an object selected, X, Y and Z set its spin tag to
   * "x", "y" or "z"; with nothing selected, or for any other key, nothing
   * changes.
   */
  function AdjustRotation(c: Controls, key: int): (d: Controls)
    requires c.Valid()
    ensures d.Valid()
    ensures OthersUnchanged(c, d)
    ensures RotationTag(key).Some? && c.selected.Some? ==>
      d.objects[c.selected.value] == c.objects[c.selected.value].(rotate := RotationTag(key).value)
    ensures RotationTag(key).None? || c.selected.None? ==> d == c
  {
    match (c.selected, RotationTag(key))
    case (Some(i), Some(tag)) => c.(objects := c.objects[i := c.objects[i].(rotate := tag)])
    case _ => c
  }

  /**
   * `adjustPlayCurve`: P toggles whether the selected object follows its
   * curve; without a selection, or for any other key, nothing changes.
   */
  function AdjustPlayCurve(c: Controls, key: int): (d: Controls)
    requires c.Valid()
    ensures d.Valid()
    ensures OthersUnchanged(c, d)
    ensures key == P && c.selected.Some? ==>
      var o := c.objects[c.selected.value];
      d.objects[c.selected.value] == o.(playCurve := !o.playCurve)
    ensures key != P || c.selected.None? ==> d == c
  {
    if key == P && c.selected.Some? then
      var i := c.selected.value;
      c.(objects := c.objects[i := c.objects[i].(playCurve := !c.objects[i].playCurve)])
    else c
  }

  /** Two presses of P restore the selected object. */
  lemma PlayCurveTwice(c: Controls)
    requires c.Valid()
    ensures AdjustPlayCurve(AdjustPlayCurve(c, P), P) == c
  {
    if c.selected.Some? {
      var i := c.selected.value;
      var d := AdjustPlayCurve(AdjustPlayCurve(c, P), P);
      assert d.objects[i] == c.objects[i];
      assert d.objects == c.objects;
    }
  }

  /** The index of the first object of group `id`, if any: the object the scan in `setSelectedObject` stops at. */
  function FirstWithId(objects: seq<SceneObj>, id: int): (r: Option<nat>)
    ensures r.Some? ==> r.value < |objects| && objects[r.value].transfObjectId == id
    ensures r.Some? ==> forall j :: 0 <= j < r.value ==> objects[j].transfObjectId != id
    ensures r.None? ==> forall j :: 0 <= j < |objects| ==> objects[j].transfObjectId != id
  {
    if objects == [] then None
    else if objects[0].transfObjectId == id then Some(0)
    else
      match FirstWithId(objects[1..], id)
      case None => None
      case Some(k) => Some(k + 1)
  }

  /**
   * `setSelectedObject`: clears the spin tag of the current selection; a
   * negative id deselects; otherwise the first object of group `id` becomes
   * selected, and when there is none the selection stays where it was (with
   * its spin tag already cleared). The translation flags and the scale step
   * are reset either way.
   */
  function SetSelectedObject(c: Controls, id: int): (d: Controls)
    requires c.Valid()
    ensures d.Valid()
    ensures OthersUnchanged(c, d.(selected := c.selected, translation := c.translation, scale := c.scale))
    ensures c.selected.Some? ==> d.objects[c.selected.value] == c.objects[c.selected.value].(rotate := "")
    ensures id < 0 ==> d.selected.None?
    ensures id >= 0 ==> d.selected == (if FirstWithId(c.objects, id).Some? then FirstWithId(c.objects, id) else c.selected)
    ensures d.translation == Reset && d.scale == 0.0 && d.closing == c.closing
  {
    var objects :=
      if c.selected.Some? then c.objects[c.selected.value := c.objects[c.selected.value].(rotate := "")] else c.objects;
    FirstWithIdIgnoresRotate(objects, c.objects, id);
    var selected :=
      if id < 0 then None
      else match FirstWithId(objects, id)
        case Some(i) => Some(i)
        case None => c.selected;
    Controls(objects, selected, Reset, 0.0, c.closing)
  }

  /** The group a selection key picks: 0 to 9 for the digit keys, -1 for either Enter. */
  function SelectionId(key: int): (id: Option<int>)
    ensures id.Some? <==> DigitOf(key).Some? || key == Enter || key == KeypadEnter
    ensures DigitOf(key).Some? ==> id == DigitOf(key)
    ensures key == Enter || key == KeypadEnter ==> id == Some(-1)
  {
    if DigitOf(key).Some? then DigitOf(key)
    else if key == Enter || key == KeypadEnter then Some(-1)
    else None
  }

  /**
   * `selectObjectByKey`: main-row and keypad digits select groups 0 to 9,
   * Enter and keypad Enter deselect, other keys change nothing.
   */
  function SelectObjectByKey(c: Controls, key: int): (d: Controls)
    requires c.Valid()
    ensures d.Valid()
    ensures SelectionId(key).None? ==> d == c
    ensures SelectionId(key).Some? ==> d.translation == Reset && d.scale == 0.0 && d.closing == c.closing
    ensures key == Enter || key == KeypadEnter ==> d.selected.None?
    ensures DigitOf(key).Some? && FirstWithId(c.objects, DigitOf(key).value).Some? ==>
      d.selected == FirstWithId(c.objects, DigitOf(key).value)
    ensures DigitOf(key).Some? && FirstWithId(c.objects, DigitOf(key).value).None? ==> d.selected == c.selected
    ensures SelectionId(key).Some? ==>
      && |d.objects| == |c.objects|
      && forall i :: 0 <= i < |c.objects| && c.selected != Some(i) ==> d.objects[i] == c.objects[i]
    ensures SelectionId(key).Some? && c.selected.Some? ==>
      d.objects[c.selected.value] == c.objects[c.selected.value].(rotate := "")
  {
    match SelectionId(key)
    case Some(id) => SetSelectedObject(c, id)
    case None => c
  }

  /**
   * `keyCallback`: Escape pressed asks the window to close; the scale,
   * rotation, curve and selection handlers run, in that order, only for a
   * press; the translation handler runs for every action.
   */
  function KeyCallback(c: Controls, e: KeyEvent): (d: Controls)
    requires c.Valid()
    ensures d.Valid()
    ensures d.closing <==> c.closing || (e.key == Escape && e.action == Press)
    ensures |d.objects| == |c.objects|
    ensures e.action != Press || SelectionId(e.key).None? ==> d.translation == Adjust(c.translation, e.key, SceneLayout)
    ensures e.action == Press && SelectionId(e.key).Some? ==> d.translation == Reset
    ensures e.action != Press ==> d.scale == c.scale && d.selected == c.selected && d.objects == c.objects
    ensures e.action == Press && SelectionId(e.key).None? ==> d.scale == AdjustScale(c.scale, e.key) && d.selected == c.selected
    ensures e.action == Press && SelectionId(e.key).Some? ==> d.scale == 0.0
    ensures e.action == Press && c.selected.Some? && RotationTag(e.key).Some? ==>
      d.objects[c.selected.value].rotate == RotationTag(e.key).value
    ensures e.action == Press && c.selected.Some? && e.key == P ==>
      d.objects[c.selected.value].playCurve == !c.objects[c.selected.value].playCurve
    ensures e.action == Press && SelectionId(e.key).Some? ==> d == SelectObjectByKey(c, e.key)
    ensures e.action == Press && SelectionId(e.key).None? ==>
      d.objects == AdjustPlayCurve(AdjustRotation(c, e.key), e.key).objects
  {
    var c1 := c.(closing := c.closing || (e.key == Escape && e.action == Press));
    var c2 :=
      if e.action == Press then
        var s := c1.(scale := AdjustScale(c1.scale, e.key));
        var r := AdjustRotation(s, e.key);
        var p := AdjustPlayCurve(r, e.key);
        SelectObjectByKey(p, e.key)
      else c1;
    c2.(translation := Adjust(c2.translation, e.key, SceneLayout))
  }

  /** A repeat or a release only moves the translation flags. */
  lemma NotPressOnlyTranslates(c: Controls, e: KeyEvent)
    requires c.Valid() && e.action != Press
    ensures KeyCallback(c, e) == c.(translation := Adjust(c.translation, e.key, SceneLayout))
  {
  }

  /**
   * Pressing digit key `n` while some object belongs to group `n` selects the
   * first such object and clears the translation flags.
   */
  lemma DigitPressSelects(c: Controls, key: int)
    requires c.Valid() && DigitOf(key).Some?
    requires FirstWithId(c.objects, DigitOf(key).value).Some?
    ensures KeyCallback(c, KeyEvent(key, Press)).selected == FirstWithId(c.objects, DigitOf(key).value)
    ensures KeyCallback(c, KeyEvent(key, Press)).translation == Reset
  {
    var n := DigitOf(key).value;
    var cleared := c.objects;
    if c.selected.Some? {
      cleared := c.objects[c.selected.value := c.objects[c.selected.value].(rotate := "")];
    }
    FirstWithIdIgnoresRotate(c.objects, cleared, n);
  }

  /** The group scan does not look at spin tags. */
  lemma {:induction false} FirstWithIdIgnoresRotate(a: seq<SceneObj>, b: seq<SceneObj>, id: int)
    requires |a| == |b|
    requires forall i :: 0 <= i < |a| ==> a[i].transfObjectId == b[i].transfObjectId
    ensures FirstWithId(a, id) == FirstWithId(b, id)
  {
    if a != [] {
      FirstWithIdIgnoresRotate(a[1..], b[1..], id);
    }
  }

  /** Events handled in the order they arrive. */
  function KeyCallbacks(c: Controls, events: seq<KeyEvent>): (d: Controls)
    requires c.Valid()
    ensures d.Valid() && |d.objects| == |c.objects|
    decreases |events|
  {
    if events == [] then c else KeyCallbacks(KeyCallback(c, events[0]), events[1..])
  }
}

=== FILE: text.dfy ===
/**
 * The small amount of text handling both readers rely on: splitting a line
 * into words the way successive `>>` extractions from a string stream do,
 * cutting a face token at '/', and reading numbers the way `atoi`, `stoi`
 * and a float extraction do.
 */
module Text {

  /** White space as the C locale sees it: space, tab, newline, vertical tab, form feed, carriage return. */
  predicate IsSpace(c: char) {
    c == ' ' || 9 <= c as int <= 13
  }

  predicate IsDigit(c: char) {
    '0' <= c <= '9'
  }

  predicate AllDigits(s: string) {
    forall i :: 0 <= i < |s| ==> IsDigit(s[i])
  }

  /** What one `>>` extraction into a string yields: a non-empty run without white space. */
  predicate IsWord(w: string) {
    w != [] && forall i :: 0 <= i < |w| ==> !IsSpace(w[i])
  }

  /** `s` with its leading white space removed. */
  function SkipSpaces(s: string): (t: string)
    ensures |t| <= |s| && t == s[|s| - |t|..]
    ensures t == [] || !IsSpace(t[0])
    ensures forall i :: 0 <= i < |s| - |t| ==> IsSpace(s[i])
  {
    if s != [] && IsSpace(s[0]) then SkipSpaces(s[1..]) else s
  }

  /** The longest prefix of `s` without white space. */
  function WordPrefix(s: string): (w: string)
    ensures |w| <= |s| && w == s[..|w|]
    ensures forall i :: 0 <= i < |w| ==> !IsSpace(w[i])
    ensures |w| < |s| ==> IsSpace(s[|w|])
  {
    if s == [] || IsSpace(s[0]) then [] else [s[0]] + WordPrefix(s[1..])
  }

  /** The words of a line, in the order successive `>>` extractions read them. */
  function Words(s: string): (ws: seq<string>)
    ensures forall i :: 0 <= i < |ws| ==> IsWord(ws[i])
    decreases |s|
  {
    var t := SkipSpaces(s);
    if t == [] then []
    else
      var w := WordPrefix(t);
      [w] + Words(t[|w|..])
  }

  /**
   * The `i`-th word, or `default` when the line has fewer words: an extraction
   * that finds no word leaves its target string as it was.
   */
  function WordOr(ws: seq<string>, i: nat, default: string): string {
    if i < |ws| then ws[i] else default
  }

  /** The first word of a line, or "" for a blank line. */
  function FirstWord(line: string): string {
    WordOr(Words(line), 0, "")
  }

  /** Words joined by single spaces, the way an exporter writes a line. */
  function Unwords(ws: seq<string>): string {
    if |ws| == 0 then ""
    else if |ws| == 1 then ws[0]
    else ws[0] + " " + Unwords(ws[1..])
  }

  lemma {:induction false} WordPrefixOfWord(w: string, rest: string)
    requires IsWord(w)
    requires rest == [] || IsSpace(rest[0])
    ensures WordPrefix(w + rest) == w
    decreases |w|
  {
    if |w| > 1 {
      assert (w + rest)[1..] == w[1..] + rest;
      WordPrefixOfWord(w[1..], rest);
    } else {
      assert (w + rest)[1..] == rest;
    }
  }

  /** A word followed by white space or nothing is read as that word, then the rest. */
  lemma WordsOfWordThen(w: string, rest: string)
    requires IsWord(w)
    requires rest == [] || IsSpace(rest[0])
    ensures Words(w + rest) == [w] + Words(rest)
  {
    var s := w + rest;
    assert SkipSpaces(s) == s;
    WordPrefixOfWord(w, rest);
    assert s[|w|..] == rest;
    if rest != [] {
      assert SkipSpaces(rest) == SkipSpaces(rest[1..]);
    }
  }

  /** White space in front of a line does not change its words. */
  lemma WordsAfterSpace(c: char, u: string)
    requires IsSpace(c)
    ensures Words([c] + u) == Words(u)
  {
    assert ([c] + u)[1..] == u;
    assert SkipSpaces([c] + u) == SkipSpaces(u);
  }

  /** A single word reads back as itself. */
  lemma WordsOfWord(w: string)
    requires IsWord(w)
    ensures Words(w) == [w]
  {
    WordsOfWordThen(w, []);
    assert w + [] == w;
  }

  /** Splitting a line written word by word gives the words back. */
  lemma {:induction false} WordsOfUnwords(ws: seq<string>)
    requires forall i :: 0 <= i < |ws| ==> IsWord(ws[i])
    ensures Words(Unwords(ws)) == ws
  {
    if |ws| == 1 {
      WordsOfWord(ws[0]);
    } else if |ws| > 1 {
      var w, rest := ws[0], ws[1..];
      assert ws == [w] + rest;
      assert forall i :: 0 <= i < |rest| ==> IsWord(rest[i]) by {
        forall i | 0 <= i < |rest| ensures IsWord(rest[i]) {
          assert rest[i] == ws[i + 1];
        }
      }
      var u := Unwords(rest);
      var v := [' '] + u;
      assert Unwords(ws) == w + v;
      assert v[0] == ' ';
      WordsOfWordThen(w, v);
      WordsAfterSpace(' ', u);
      WordsOfUnwords(rest);
    }
  }

  /** The part of `s` before the first `c`; all of `s` when there is none. */
  function Before(s: string, c: char): (p: string)
    ensures |p| <= |s| && p == s[..|p|]
    ensures c !in p
    ensures |p| < |s| ==> s[|p|] == c
  {
    if s == [] || s[0] == c then [] else [s[0]] + Before(s[1..], c)
  }

  /**
   * The part of `s` after the first `c`. When there is no `c`, `find` returns
   * `npos`, which the C++ reader stores in an `int` as -1, so `substr(pos + 1)`
   * keeps the whole of `s`.
   */
  function After(s: string, c: char): (t: string)
    ensures c in s ==> s == Before(s, c) + [c] + t
    ensures c !in s ==> t == s
  {
    if c in s then
      var p := Before(s, c);
      assert s == p + [c] + s[|p| + 1..];
      s[|p| + 1..]
    else s
  }

  /** Without a `c`, both cuts keep the whole of `s`. */
  lemma NoSeparator(s: string, c: char)
    requires c !in s
    ensures Before(s, c) == s && After(s, c) == s
  {
  }

  /** The part of `s` after the last `c`; all of `s` when there is none. */
  function AfterLast(s: string, c: char): (t: string)
    ensures |t| <= |s| && t == s[|s| - |t|..]
    ensures c !in t
    ensures |t| < |s| ==> s[|s| - |t| - 1] == c
  {
    if s == [] || s[|s| - 1] == c then [] else AfterLast(s[..|s| - 1], c) + [s[|s| - 1]]
  }

  /** Cutting at the first `c` of `p + [c] + q` gives back `p`, when `p` holds no `c`. */
  lemma {:induction false} BeforeSeparator(p: string, c: char, q: string)
    requires c !in p
    ensures Before(p + [c] + q, c) == p
    ensures After(p + [c] + q, c) == q
  {
    var s := p + [c] + q;
    if p != [] {
      assert s[1..] == p[1..] + [c] + q;
      BeforeSeparator(p[1..], c, q);
      assert p == [p[0]] + p[1..];
    }
    assert s[|p| + 1..] == q;
  }

  /** Cutting at the last `c` of `p + [c] + q` gives back `q`, when `q` holds no `c`. */
  lemma {:induction false} AfterLastSeparator(p: string, c: char, q: string)
    requires c !in q
    ensures AfterLast(p + [c] + q, c) == q
  {
    var s := p + [c] + q;
    if q != [] {
      var q' := q[..|q| - 1];
      assert s[..|s| - 1] == p + [c] + q';
      AfterLastSeparator(p, c, q');
      assert q == q' + [q[|q| - 1]];
    }
  }

  /** Two words glued by a non-space character form one word. */
  lemma GluedWord(a: string, c: char, b: string)
    requires IsWord(a) && IsWord(b) && !IsSpace(c)
    ensures IsWord(a + [c] + b)
  {
    var s := a + [c] + b;
    forall i | 0 <= i < |s| ensures !IsSpace(s[i]) {
      if i < |a| {
        assert s[i] == a[i];
      } else if i > |a| {
        assert s[i] == b[i - |a| - 1];
      }
    }
  }

  /** The longest prefix of `s` made of decimal digits. */
  function LeadingDigits(s: string): (ds: string)
    ensures |ds| <= |s| && ds == s[..|ds|]
    ensures AllDigits(ds)
    ensures |ds| < |s| ==> !IsDigit(s[|ds|])
  {
    if s == [] || !IsDigit(s[0]) then [] else [s[0]] + LeadingDigits(s[1..])
  }

  function DigitValue(c: char): nat
    requires IsDigit(c)
  {
    c as int - '0' as int
  }

  /** The number a string of decimal digits spells; 0 for the empty string. */
  function DigitsValue(ds: string): nat
    requires AllDigits(ds)
  {
    if ds == [] then 0 else 10 * DigitsValue(ds[..|ds| - 1]) + DigitValue(ds[|ds| - 1])
  }

  /** Strips one leading '+' or '-', as `strtol` and a float extraction accept. */
  function Unsigned(s: string): string {
    if s != [] && (s[0] == '-' || s[0] == '+') then s[1..] else s
  }

  predicate Negative(s: string) {
    s != [] && s[0] == '-'
  }

  /**
   * `atoi`: leading white space, an optional sign, then as many digits as
   * follow; 0 when there are none. Overflow is not modelled.
   */
  function Atoi(s: string): int {
    var t := SkipSpaces(s);
    var n: int := DigitsValue(LeadingDigits(Unsigned(t)));
    if Negative(t) then -n else n
  }

  /** `stoi` converts `s` (rather than throwing `invalid_argument`) exactly when a digit follows the white space and sign. */
  predicate StoiConverts(s: string)
    ensures StoiConverts(s) <==> LeadingDigits(Unsigned(SkipSpaces(s))) != []
  {
    var u := Unsigned(SkipSpaces(s));
    u != [] && IsDigit(u[0])
  }

  function Pow10(n: nat): (p: nat)
    ensures p >= 1
  {
    if n == 0 then 1 else 10 * Pow10(n - 1)
  }

  /**
   * The value a float extraction reads from a coordinate word: an optional
   * sign, integer digits, and an optional fraction after '.'; 0.0 when the
   * word holds no number.
   */
  function ReadFloat(w: string): real {
    var u := Unsigned(w);
    var whole := LeadingDigits(u);
    var rest := u[|whole|..];
    var fraction := if rest != [] && rest[0] == '.' then LeadingDigits(rest[1..]) else [];
    var magnitude := DigitsValue(whole) as real + DigitsValue(fraction) as real / Pow10(|fraction|) as real;
    if Negative(w) then -magnitude else magnitude
  }

  function DigitChar(d: nat): (c: char)
    requires d < 10
    ensures IsDigit(c) && DigitValue(c) == d
  {
    ('0' as int + d) as char
  }

  /** The decimal numeral of `n`, without leading zeros. */
  function Decimal(n: nat): (s: string)
    ensures s != [] && AllDigits(s)
  {
    if n < 10 then [DigitChar(n)] else Decimal(n / 10) + [DigitChar(n % 10)]
  }

  lemma {:induction false} DecimalValue(n: nat)
    ensures DigitsValue(Decimal(n)) == n
  {
    var s := Decimal(n);
    if n >= 10 {
      assert s[..|s| - 1] == Decimal(n / 10);
      DecimalValue(n / 10);
    } else {
      assert s[..|s| - 1] == [];
    }
  }

  /** A decimal numeral is one word, holds no `c` other than a digit, and `atoi` and `stoi` read it back. */
  lemma AtoiDecimal(n: nat)
    ensures Atoi(Decimal(n)) == n
    ensures StoiConverts(Decimal(n))
    ensures IsWord(Decimal(n))
    ensures forall c :: c in Decimal(n) ==> IsDigit(c)
  {
    var s := Decimal(n);
    assert SkipSpaces(s) == s;
    assert Unsigned(s) == s;
    assert LeadingDigits(s) == s;
    DecimalValue(n);
  }
}

=== FILE: translation.dfy ===
/**
 * The translation flags both programs keep (`translateX/Y/Z` and
 * `translateDirection`) and the arrow-key dispatch that sets them. The two
 * programs bind the Z axis to different keys: W/S in Modulo4, I/K in GrauB.
 */
module Translation {
  import opened Wrappers
  import opened Keys

  datatype Axis = XAxis | YAxis | ZAxis

  /** `translateX`, `translateY`, `translateZ` and `translateDirection`. */
  datatype Flags = Flags(x: bool, y: bool, z: bool, direction: int) {

    /** At most one axis is on, the direction is -1, 0 or 1, and it is 0 exactly when no axis is on. */
    predicate Valid() {
      && !(x && y) && !(x && z) && !(y && z)
      && -1 <= direction <= 1
      && (direction == 0 <==> !(x || y || z))
    }

    /** The axis that is on, if any. */
    function Active(): (a: Option<Axis>)
      requires Valid()
      ensures a == None <==> !(x || y || z)
      ensures a == Some(XAxis) <==> x
      ensures a == Some(YAxis) <==> y
      ensures a == Some(ZAxis) <==> z
    {
      if x then Some(XAxis) else if y then Some(YAxis) else if z then Some(ZAxis) else None
    }
  }

  /** `resetTranslationVariables`: every axis off, no direction. */
  const Reset := Flags(false, false, false, 0)

  /** Which keys drive the Z axis: W/S in Modulo4's viewer, I/K in GrauB's scene. */
  datatype Layout = ViewerLayout | SceneLayout

  function ZForward(layout: Layout): int {
    match layout
    case ViewerLayout => W
    case SceneLayout => I
  }

  function ZBackward(layout: Layout): int {
    match layout
    case ViewerLayout => S
    case SceneLayout => K
  }

  /** The key moves along some axis under this layout. */
  predicate Bound(key: int, layout: Layout) {
    key in {Right, Left, Up, Down, ZForward(layout), ZBackward(layout)}
  }

  /** The flags with exactly `axis` on, moving in `direction`. */
  function Moving(axis: Axis, direction: int): Flags {
    Flags(axis == XAxis, axis == YAxis, axis == ZAxis, direction)
  }

  /**
   * `adjustTranslation`: Right/Left move along X, Up/Down along Y and the
   * layout's Z keys along Z, the first of each pair forward (+1) and the second
   * backward (-1); any other key leaves the flags as they were.
   */
  function Adjust(f: Flags, key: int, layout: Layout): (g: Flags)
    ensures !Bound(key, layout) ==> g == f
    ensures Bound(key, layout) ==> g.Valid() && g.direction != 0
    ensures Bound(key, layout) ==> (g.direction == 1 <==> key in {Right, Up, ZForward(layout)})
    ensures g.x <==> (if Bound(key, layout) then key == Right || key == Left else f.x)
    ensures g.y <==> (if Bound(key, layout) then key == Up || key == Down else f.y)
    ensures g.z <==> (if Bound(key, layout) then key == ZForward(layout) || key == ZBackward(layout) else f.z)
    ensures f.Valid() ==> g.Valid()
  {
    if key == Right then Moving(XAxis, 1)
    else if key == Left then Moving(XAxis, -1)
    else if key == Up then Moving(YAxis, 1)
    else if key == Down then Moving(YAxis, -1)
    else if key == ZForward(layout) then Moving(ZAxis, 1)
    else if key == ZBackward(layout) then Moving(ZAxis, -1)
    else f
  }

  /** The reset state is valid and moves nothing. */
  lemma ResetIsIdle()
    ensures Reset.Valid() && Reset.Active() == None && Reset.direction == 0
  {
  }

  /** Pressing the same key again changes nothing. */
  lemma AdjustIdempotent(f: Flags, key: int, layout: Layout)
    ensures Adjust(Adjust(f, key, layout), key, layout) == Adjust(f, key, layout)
  {
  }

  /** The flags after a sequence of keys, in order. */
  function AdjustAll(f: Flags, keys: seq<int>, layout: Layout): Flags
    decreases |keys|
  {
    if keys == [] then f else AdjustAll(Adjust(f, keys[0], layout), keys[1..], layout)
  }

  /** The last key of `keys` that moves along an axis, if any. */
  function LastBound(keys: seq<int>, layout: Layout): (k: Option<int>)
    ensures k.Some? ==> k.value in keys && Bound(k.value, layout)
    ensures k.None? <==> forall i :: 0 <= i < |keys| ==> !Bound(keys[i], layout)
  {
    if keys == [] then None
    else if Bound(keys[|keys| - 1], layout) then Some(keys[|keys| - 1])
    else
      var k := LastBound(keys[..|keys| - 1], layout);
      assert forall i :: 0 <= i < |keys| - 1 ==> keys[..|keys| - 1][i] == keys[i];
      k
  }

  /** Appending one key to a sequence adjusts the flags the sequence left. */
  lemma {:induction false} AdjustAllSnoc(f: Flags, keys: seq<int>, key: int, layout: Layout)
    ensures AdjustAll(f, keys + [key], layout) == Adjust(AdjustAll(f, keys, layout), key, layout)
    decreases |keys|
  {
    if keys == [] {
      assert [key][1..] == [];
    } else {
      assert (keys + [key])[1..] == keys[1..] + [key];
      AdjustAllSnoc(Adjust(f, keys[0], layout), keys[1..], key, layout);
    }
  }

  /**
   * Only the last axis key of a sequence matters: the flags are what that key
   * alone sets from the reset state, or the starting flags when no key of the
   * sequence is bound.
   */
  lemma {:induction false} LastBoundKeyWins(f: Flags, keys: seq<int>, layout: Layout)
    ensures AdjustAll(f, keys, layout) == match LastBound(keys, layout)
      case None => f
      case Some(k) => Adjust(Reset, k, layout)
    decreases |keys|
  {
    if keys != [] {
      var init, last := keys[..|keys| - 1], keys[|keys| - 1];
      assert keys == init + [last];
      AdjustAllSnoc(f, init, last, layout);
      LastBoundKeyWins(f, init, layout);
    }
  }

  /** Any sequence of keys keeps valid flags valid. */
  lemma {:induction false} AdjustAllValid(f: Flags, keys: seq<int>, layout: Layout)
    requires f.Valid()
    ensures AdjustAll(f, keys, layout).Valid()
    decreases |keys|
  {
    if keys != [] {
      AdjustAllValid(Adjust(f, keys[0], layout), keys[1..], layout);
    }
  }
}

=== FILE: viewer_input.dfy ===
/**
 * Modulo4's keyboard state: which axis the objects spin about, which axis
 * they move along, the uniform scale, and whether the window should close;
 * with the key callback that updates it and the per-object dispatch the main
 * loop derives from it.
 */
module ViewerInput {
  import opened Wrappers
  import opened Keys
  import opened Translation

  /** `rotateX`, `rotateY` and `rotateZ`. */
  datatype Rotation = Rotation(x: bool, y: bool, z: bool) {

    /** At most one axis spins. */
    predicate Valid() {
      !(x && y) && !(x && z) && !(y && z)
    }
  }

  /** The key picks a rotation axis. */
  predicate IsRotationKey(key: int) {
    key == X || key == Y || key == Z
  }

  /**
   * `adjustRotation`: X, Y and Z switch on exactly the matching flag and
   * switch off the other two; other keys leave the flags alone.
   */
  function AdjustRotation(r: Rotation, key: int): (s: Rotation)
    ensures IsRotationKey(key) ==> s.Valid() && (s.x <==> key == X) && (s.y <==> key == Y) && (s.z <==> key == Z)
    ensures !IsRotationKey(key) ==> s == r
  {
    if key == X then Rotation(true, false, false)
    else if key == Y then Rotation(false, true, false)
    else if key == Z then Rotation(false, false, true)
    else r
  }

  /** Once an axis spins, some axis keeps spinning whatever key comes, and the flags stay valid. */
  lemma RotationNeverStops(r: Rotation, key: int)
    requires r.Valid()
    ensures AdjustRotation(r, key).Valid()
    ensures (r.x || r.y || r.z) ==> (AdjustRotation(r, key).x || AdjustRotation(r, key).y || AdjustRotation(r, key).z)
  {
  }

  /**
   * `adjustScale`: keypad + grows the scale by 5% of itself and keypad -
   * shrinks it by 5% of itself; other keys leave it alone. Float rounding is
   * not modelled.
   */
  function AdjustScale(scale: real, key: int): (s: real)
    ensures key == KeypadAdd ==> s == scale * (21.0 / 20.0)
    ensures key == KeypadSubtract ==> s == scale * (19.0 / 20.0)
    ensures key != KeypadAdd && key != KeypadSubtract ==> s == scale
  {
    var scaleFactor := 0.05;
    if key == KeypadAdd then scale + scale * scaleFactor
    else if key == KeypadSubtract then scale - scale * scaleFactor
    else scale
  }

  /**
   * A positive scale stays positive, and + followed by - does not undo the
   * change: it leaves 399/400 of the scale.
   */
  lemma ScaleSteps(scale: real, key: int)
    requires scale > 0.0
    ensures AdjustScale(scale, key) > 0.0
    ensures AdjustScale(AdjustScale(scale, KeypadAdd), KeypadSubtract) == scale * (399.0 / 400.0) < scale
  {
  }

  /** The viewer's whole keyboard state. */
  datatype Controls = Controls(rotation: Rotation, translation: Flags, scale: real, closing: bool) {

    predicate Valid() {
      rotation.Valid() && translation.Valid() && scale > 0.0
    }
  }

  /** Nothing spins or moves, the scale is 1 and the window stays open. */
  const Initial := Controls(Rotation(false, false, false), Reset, 1.0, false)

  /**
   * `keyCallback`: Escape pressed asks the window to close; the scale,
   * rotation and translation handlers see every key whatever its action,
   * releases and repeats included.
   */
  function KeyCallback(c: Controls, e: KeyEvent): (d: Controls)
    ensures d.closing <==> c.closing || (e.key == Escape && e.action == Press)
    ensures c.Valid() ==> d.Valid()
    ensures d.rotation == AdjustRotation(c.rotation, e.key) && d.scale == AdjustScale(c.scale, e.key)
    ensures d.translation == Adjust(c.translation, e.key, ViewerLayout)
  {
    var closing := c.closing || (e.key == Escape && e.action == Press);
    var scale := AdjustScale(c.scale, e.key);
    var rotation := AdjustRotation(c.rotation, e.key);
    var translation := Adjust(c.translation, e.key, ViewerLayout);
    Controls(rotation, translation, scale, closing)
  }

  /** Events handled in the order they arrive. */
  function KeyCallbacks(c: Controls, events: seq<KeyEvent>): Controls
    decreases |events|
  {
    if events == [] then c else KeyCallbacks(KeyCallback(c, events[0]), events[1..])
  }

  /** The action of an event matters only for Escape: the rest of the state sees the key alone. */
  lemma ActionMattersOnlyForEscape(c: Controls, key: int, a: int, b: int)
    requires key != Escape
    ensures KeyCallback(c, KeyEvent(key, a)) == KeyCallback(c, KeyEvent(key, b))
  {
  }

  /** The translation a run of events leaves is the translation dispatch applied to its keys. */
  lemma {:induction false} TranslationOfEvents(c: Controls, events: seq<KeyEvent>)
    ensures KeyCallbacks(c, events).translation == AdjustAll(c.translation, KeysOf(events), ViewerLayout)
    decreases |events|
  {
    if events != [] {
      TranslationOfEvents(KeyCallback(c, events[0]), events[1..]);
      assert KeysOf(events)[1..] == KeysOf(events[1..]);
    }
  }

  /** Any run of events keeps the state valid. */
  lemma {:induction false} KeyCallbacksValid(c: Controls, events: seq<KeyEvent>)
    requires c.Valid()
    ensures KeyCallbacks(c, events).Valid()
    decreases |events|
  {
    if events != [] {
      KeyCallbacksValid(KeyCallback(c, events[0]), events[1..]);
    }
  }

  /**
   * One pass of the main loop's input handling: the translation flags are
   * reset, then the frame's events are handled.
   */
  function Frame(c: Controls, events: seq<KeyEvent>): (d: Controls)
    ensures c.Valid() ==> d.Valid()
  {
    var d := KeyCallbacks(c.(translation := Reset), events);
    if c.Valid() then
      KeyCallbacksValid(c.(translation := Reset), events);
      d
    else d
  }

  /**
   * Translation does not carry over between frames: a frame moves along the
   * axis of its own last arrow or W/S key, and not at all when it has none.
   */
  lemma FrameTranslation(c: Controls, events: seq<KeyEvent>)
    ensures Frame(c, events).translation == match LastBound(KeysOf(events), ViewerLayout)
      case None => Reset
      case Some(k) => Adjust(Reset, k, ViewerLayout)
  {
    TranslationOfEvents(c.(translation := Reset), events);
    LastBoundKeyWins(Reset, KeysOf(events), ViewerLayout);
  }

  /** Every object is told the same things in a frame: spin, move, and take the scale. */
  datatype Action = RotateAbout(axis: Axis) | TranslateAlong(axis: Axis, direction: int) | SetScale(scale: real)

  /**
   * The calls the main loop makes on each object: a rotation about the first
   * spinning axis in X, Y, Z order, a translation along the first moving axis
   * in the same order, then the scale, always.
   */
  function ObjectActions(c: Controls): (acts: seq<Action>)
    ensures |acts| >= 1 && acts[|acts| - 1] == SetScale(c.scale)
    ensures |acts| == (if c.rotation.x || c.rotation.y || c.rotation.z then 1 else 0)
                    + (if c.translation.x || c.translation.y || c.translation.z then 1 else 0) + 1
    ensures (c.rotation.x || c.rotation.y || c.rotation.z) ==> acts[0].RotateAbout?
    ensures (exists a :: RotateAbout(a) in acts) <==> (c.rotation.x || c.rotation.y || c.rotation.z)
    ensures (exists a, d :: TranslateAlong(a, d) in acts) <==> (c.translation.x || c.translation.y || c.translation.z)
    ensures c.Valid() ==> forall a :: RotateAbout(a) in acts ==>
      (a == XAxis <==> c.rotation.x) && (a == YAxis <==> c.rotation.y) && (a == ZAxis <==> c.rotation.z)
    ensures c.Valid() ==> forall a, d :: TranslateAlong(a, d) in acts ==>
      Some(a) == c.translation.Active() && d == c.translation.direction && d != 0
  {
    var rotate :=
      if c.rotation.x then [RotateAbout(XAxis)]
      else if c.rotation.y then [RotateAbout(YAxis)]
      else if c.rotation.z then [RotateAbout(ZAxis)]
      else [];
    var translate :=
      if c.translation.x then [TranslateAlong(XAxis, c.translation.direction)]
      else if c.translation.y then [TranslateAlong(YAxis, c.translation.direction)]
      else if c.translation.z then [TranslateAlong(ZAxis, c.translation.direction)]
      else [];
    rotate + translate + [SetScale(c.scale)]
  }

  /**
   * A frame's objects are moved exactly when one of the frame's own events is
   * an arrow or W/S key, along the axis and in the direction the last such key
   * picks; the spin and the scale come from the state the events leave.
   */
  lemma FrameActions(c: Controls, events: seq<KeyEvent>)
    ensures var acts := ObjectActions(Frame(c, events));
      match LastBound(KeysOf(events), ViewerLayout)
      case None => forall a, d :: TranslateAlong(a, d) !in acts
      case Some(k) =>
        var g := Adjust(Reset, k, ViewerLayout);
        TranslateAlong(g.Active().value, g.direction) in acts
  {
    FrameTranslation(c, events);
    var f := Frame(c, events).translation;
    var acts := ObjectActions(Frame(c, events));
    match LastBound(KeysOf(events), ViewerLayout)
    case None =>
    case Some(k) =>
      var g := Adjust(Reset, k, ViewerLayout);
      assert g.Valid() && g.direction != 0;
      assert f == g;
  }
}

=== FILE: wrappers.dfy ===
/** Failure-carrying datatypes shared by the readers and the input handlers. */
module Wrappers {

  /** An optional value; `None` stands for a null pointer or a missing item. */
  datatype Option<+T> = None | Some(value: T)

  /** Either a value or the reason there is none. */
  datatype Result<+R, +E> = Success(value: R) | Failure(error: E)
}
